=== FILE: README.md ===
# Finalized allocation in the Boehm–Demers–Weiser collector (fnlz_mlc.c)

This project models the finalized-object allocator of `fnlz_mlc.c` in Dafny and proves properties of the model.

Every object of the finalized kind begins with one header word:

- **Live object.** While the object is live, the header holds the address of its finalizer closure with bit 0 set.
- **Free-list fragment.** While the object sits on a free list, the header holds the even address of the next fragment, or NULL.

When the collector sweeps an unreachable object of this kind, `GC_finalized_disclaim` reads bit 0 of the header. If the bit is set, it runs the closure's procedure exactly once. The object is never retained.

Allocation has two paths:

- **Global path.** `GC_core_finalized_malloc` pops the head of a size class's global free list under the lock. When the list is empty, or the request is large, it falls back to `GC_generic_malloc`.
- **Thread-local path.** `GC_finalized_malloc` keeps one slot per tiny size class in each thread. A slot holds a small count of direct allocations, a refill marker, or the head of a list.

`GC_init_finalized_malloc` is a once-only latch that creates the kind. `GC_register_disclaim_proc` installs a disclaim procedure on any kind.

The model is functional: an immutable `State` record and pure transition functions.

| Module | File | Contents |
|---|---|---|
| `Machine` | `machine.dfy` | Words, sizes and configuration constants. |
| `Bits` | `bits.dfy` | Proves that the arithmetic forms of masking, clearing and setting bit 0 match the 64-bit bitwise operations. |
| `Header` | `header.dfy` | Tagging, and the `Fragment`/`Live` view of a header word. |
| `Disclaim` | `disclaim.dfy` | `GC_finalized_disclaim`. |
| `FreeLists` | `freelists.dfy` | Lists threaded through the first word of their objects, and what unlinking, cutting and refilling do to them. |
| `Refills` | `refills.dfy` | What the collector's `GC_generic_malloc_inner` and `GC_generic_malloc_many` do to the finalized kind's own free lists. |
| `Kinds` | `kinds.dfy` | The kind table and disclaim registration. |
| `Allocator` | `allocator.dfy` | The global state, initialization and the global allocation path. |
| `ThreadLocal` | `threadlocal.dfy` | The thread-local slot state machine. |

Header words, addresses and `size_t` values are integers in `[0, 2^64)`. Two sums wrap in the C code. The first is the request size `client_lb + sizeof(GC_word)` (`fnlz_mlc.c:91`, `:129`). The second is the sum inside `ROUNDED_UP_GRANULES` that picks the thread-local slot (`fnlz_mlc.c:130`). Both allocators are therefore written once over the header-inclusive request and, on the thread-local path, its slot (`Allocator.CoreMallocRequest`, `ThreadLocal.MallocRequest`). Each is then instantiated twice: with wrapping sums, as the code is written (`...AsWritten`), and with saturating sums (`Allocator.CoreFinalizedMalloc`, `ThreadLocal.FinalizedMalloc`). The saturating form is the correction recorded under "Findings". The ownership and finalization lemmas hold for every request, so for both forms.

Some constants come from headers outside this model: `gc_priv.h`, `thread_local_alloc.h` and `gc_mark.h`. They take their 64-bit default values:

- a word is 8 bytes and a granule is 16;
- `HBLKSIZE` is 4096, `MAXOBJKINDS` is 16 and `GC_TINY_FREELISTS` is 25;
- `DIRECT_GRANULES` is 256;
- `EXTRA_BYTES` is 1, because all interior pointers are recognised.

`GC_size_map` is a parameter of the model. It must map a small request to a size class whose objects hold it (`Allocator.ValidCollector`). It must also map it to a non-empty class, which the code does not rely on at `fnlz_mlc.c:95` (see the `GC_size_map` line under "Left out"). `ROUNDED_UP_GRANULES` comes from `gc_priv.h`, which is not part of this model. It is written out from its definition, `BYTES_TO_GRANULES(lb + GRANULE_BYTES - 1 + EXTRA_BYTES)` on a `size_t`.

Free objects are tracked through their links. The C code holds only list heads. The model pairs each head with the sequence of nodes reached from it (`FreeLists.Linked`) and proves what each operation does to those sequences. The global lists and a thread's lists form one pool of disjoint lists (`ThreadLocal.Owned`). Every allocation keeps the pool and hands out an object that is on none of its lists at the time of the call. It also leaves every global head and every slot that holds a list a readable object, so the state is ready for the next call (`Allocator.CoreMallocKeepsOwnership`, `ThreadLocal.FinalizedMallocKeepsOwnership`). The model does not record which objects clients already hold. The objects the collector brings in from elsewhere are required only to be on no free list (see "Left out").

The slot counts up. `fnlz_mlc.c:145-146` adds `lg + 1` to a count that starts at 1, and asks for a batch once the count passes `DIRECT_GRANULES`.

`GC_finalized_objfreelist` is the free-list store of the finalized kind (`fnlz_mlc.c:64-66`). So the collector routines this code calls for that kind work on the same lists as the fast paths:

- `GC_generic_malloc` (line 100), for a small request whose list is empty, fills that list through `GC_allocobj` and pops it.
- `GC_generic_malloc_many` (line 149) hands a thread one of three batches: objects reclaimed from a swept block or carved from a new one; the front of the global list of the same size class, cut off that list; or a single object from `GC_generic_malloc_inner`.

The model gives each of these calls its effect on the lists (`Refills`). The objects the collector brings in from elsewhere are parameters.

## Model

| member | source | states |
|---|---|---|
| `Bits.AndOneIsLowBit` | fnlz_mlc.c:33 | `w & 1` is `w` modulo 2, which is how the model writes the test for a live header. |
| `Bits.AndNotOneClearsLowBit` | fnlz_mlc.c:42 | `w & ~1` is `w` minus its low bit, which is how the model recovers the closure address. |
| `Bits.OrOneSetsLowBit` | fnlz_mlc.c:121 | OR-ing `w` with 1 gives `w` rounded down to even plus one, which is how the model tags a header. |
| `Header.LowBit` | fnlz_mlc.c:33 | Bit 0 of a header word is 0 or 1. |
| `Header.LowBitIsAndOne` | fnlz_mlc.c:33 | `LowBit(w)` equals the C expression `w & 1` evaluated on the 64-bit word. |
| `Header.ClearLowBit` | fnlz_mlc.c:42 | Masking bit 0 clears it and changes the word by at most that bit. |
| `Header.SetLowBit` | fnlz_mlc.c:121 | Setting bit 0 makes the word odd and keeps all other bits. |
| `Header.Tag` | fnlz_mlc.c:121 | A tagged header is always read as live. For an even closure address, masking bit 0 gives the address back. |
| `Header.Decode` | fnlz_mlc.c:32-42 | Bit 0 alone decides between fragment and live. Every word decodes to a well-formed view that encodes back to the same word. |
| `Header.Encode` | fnlz_mlc.c:121 | An encoded view is live exactly when it is a `Live` view. |
| `Header.DecodeEncode` | fnlz_mlc.c:33-42 | Encoding then decoding returns every well-formed view unchanged. |
| `Header.FragmentLinkIsInert` | fnlz_mlc.c:34-41 | A word-aligned link, NULL included, is never read as live. |
| `Header.TagRoundTrip` | fnlz_mlc.c:121 | For a word-aligned closure address `a`, OR-ing with 1 gives a live header, and masking bit 0 off again gives `a` back. |
| `Disclaim.FinalizedDisclaim` | fnlz_mlc.c:29-46 | Always returns 0 (not retained). Makes a call exactly when the header is live: one call of the closure's procedure, with the word after the header and the closure's `cd`. |
| `Disclaim.FragmentIsNotFinalized` | fnlz_mlc.c:33-45 | A link header (aligned, NULL included) makes no call and returns 0. |
| `Disclaim.TaggedIsFinalizedOnce` | fnlz_mlc.c:33-45 | A header tagged with an aligned closure address makes exactly one call, to that closure with its `cd`, and returns 0. |
| `Kinds.RegisterDisclaimProc` | fnlz_mlc.c:71-77 | For a kind below `MAXOBJKINDS`, only that kind's disclaim procedure and mark-unconditionally flag change. All other kinds and fields are untouched. |
| `Kinds.NewKind` | fnlz_mlc.c:65-66 | Kind creation takes the next unused index, with the given descriptor and flags and without a disclaim procedure. No other kind changes. |
| `Kinds.RegisterDisplacement` | fnlz_mlc.c:62 | The one-word offset is added to the accepted displacements, and the kind table is untouched. |
| `Allocator.InitFinalizedMalloc` | fnlz_mlc.c:50-69 | Once initialized, a later call changes nothing. The first call sets the latch, registers the one-word displacement, creates exactly one kind (length descriptor, GC_finalized_disclaim, marked unconditionally) and a new empty store, and leaves every other kind alone. |
| `Allocator.InitCallsRegisterOnce` | fnlz_mlc.c:56-60 | Any number n ≥ 1 of initialization calls leaves the state the first call leaves, so exactly one kind is registered. |
| `Allocator.RequestBytesAsWritten` | fnlz_mlc.c:91 | The request is the client size plus one word, except that it wraps below the client size when the sum passes 2^64. |
| `Allocator.RequestBytes` | fnlz_mlc.c:91 | The request is the client size plus one word. It saturates at SIZE_MAX, so it is never below the client size, and a saturated request is never small. |
| `Allocator.WriteHeader` | fnlz_mlc.c:121 | Writing the tag changes only the object's own header word. |
| `Allocator.SizeClass` | fnlz_mlc.c:95 | A small request maps to a non-zero size class within the store whose objects hold the request. |
| `Allocator.ClientPointer` | fnlz_mlc.c:122 | The caller receives the address one word past the header, or NULL. |
| `Allocator.CoreMallocRequest` | fnlz_mlc.c:92-122 | NULL exactly when neither the list nor the refill serves a small request and `GC_generic_malloc`'s reply is NULL; then nothing changes. A non-empty list gives its head and counts the class's bytes. An empty list gives the refill's first object and counts the same. Otherwise the reply is `GC_generic_malloc`'s, with the lists and the counter untouched. Every object returned is tagged, holds the request, and is returned one word past its header. |
| `Allocator.CoreFinalizedMalloc` | fnlz_mlc.c:86-123 | With the saturating request: every object holds the header word plus the client's bytes, and a request of SIZE_MAX − 8 bytes or more returns NULL with nothing changed. |
| `Allocator.CoreFinalizedMallocAsWritten` | fnlz_mlc.c:86-123 | With the request as line 91 computes it: the object holds the client's bytes only when the sum does not wrap. |
| `Allocator.CoreWrapServesTooFewBytes` | fnlz_mlc.c:91-109 | The client size 2^64 − 8 wraps to a 0-byte request, and the code as written returns a size-class object far smaller than asked for. The saturating request fails with NULL instead. |
| `Allocator.CoreMallocPopsHead` | fnlz_mlc.c:97-109 | With a non-empty list: returns the old head; the list becomes the old tail; the object is on no list; `GC_bytes_allocd` grows by the class's bytes; every other list is unchanged. |
| `Allocator.CoreMallocRefillsList` | fnlz_mlc.c:98-104 | With an empty list, `GC_generic_malloc` refills that same list and pops it: the list becomes the refill less its first object, which is returned and is on no list, and no other list changes. |
| `Allocator.CoreMallocGenericKeepsLists` | fnlz_mlc.c:98-119 | A reply from outside the kind's lists (a large object, or the out-of-memory handler's value when the refill fails) leaves every list unchanged and is on none of them. |
| `Allocator.CoreMallocKeepsOwnership` | fnlz_mlc.c:93-121 | On every path the free lists stay disjoint lists, and the returned object is on none of them. The state it leaves is valid again: every global head is NULL or a readable object. |
| `Allocator.FreeListNodesAreNotFinalized` | fnlz_mlc.c:34-41 | Disclaiming any node that sits on a free list runs no finalizer. |
| `Allocator.AllocatedObjectIsFinalizedOnce` | fnlz_mlc.c:121-122 | Disclaiming an object from the global path makes one call of its closure's procedure, on exactly the pointer the client received. |
| `FreeLists.LinkedHasNoDuplicates` | fnlz_mlc.c:106-107 | A NULL-terminated free list never visits a node twice, so unlinking the head removes the node from the list entirely. |
| `FreeLists.LinkedTail` | fnlz_mlc.c:106-107 | After the head is unlinked, the head's old link starts a list of the remaining nodes. |
| `FreeLists.Walk` | fnlz_mlc.c:149-150 | Following at most `n` links from a head gives at most `n` nodes. The first is the head, each is a real object, and each links to the next. |
| `FreeLists.WalkOfLinked` | fnlz_mlc.c:149-150 | On a free list, the walk is exactly the list's first `n` nodes, or the whole list when it is shorter. |
| `FreeLists.LinkedSplit` | fnlz_mlc.c:149-151 | Clearing the link of a list's k-th node leaves two lists: the first k nodes, and the rest from that node's old link. |
| `FreeLists.PoolPop` | fnlz_mlc.c:106-107 | Unlinking the head of one list of a disjoint pool keeps every other list and puts the node on no list. |
| `FreeLists.PoolFrame` | fnlz_mlc.c:121 | Writing the header of an object on no list keeps every list. |
| `FreeLists.PoolSplit` | fnlz_mlc.c:149-151 | Moving the front of one list to an empty list by one cut keeps the pool disjoint: the first list keeps the rest. |
| `FreeLists.LinkObjects` | fnlz_mlc.c:149-151 | Objects brought in by the collector are threaded into one NULL-terminated list, and no other word changes. |
| `FreeLists.PoolInstall` | fnlz_mlc.c:149-151 | Objects that were on no list replace an empty list of the pool, and the pool stays disjoint. |
| `FreeLists.PopFree` | fnlz_mlc.c:105-109 | The popped object's link is cleared, only list `lg` moves, no other word changes, and `GC_bytes_allocd` grows by `GRANULES_TO_BYTES(lg)`. |
| `Refills.Install` | fnlz_mlc.c:100 | The objects `GC_allocobj` supplies become list `lg`; no other head moves and readable heads stay readable. |
| `Refills.MallocInner` | fnlz_mlc.c:100 | `GC_generic_malloc_inner` returns NULL exactly when list `lg` is empty and the refill fails, and then changes nothing. Otherwise it returns the list's head, or the refill's first object, with its link cleared, and counts the class's bytes. |
| `Refills.MallocMany` | fnlz_mlc.c:149-151 | An empty batch changes nothing. Every object handed over is a real object and is counted in `GC_bytes_allocd`. Only list `lg` can move. A batch of distinct nodes is one NULL-terminated list. A prefix of a non-empty list starts at its head. |
| `Refills.MallocInnerKeepsPool` | fnlz_mlc.c:100 | The pool of global and thread lists stays disjoint. A non-empty list loses exactly its head, an empty one becomes the refill less its first object, and the object returned is on no list. |
| `Refills.FreshBatchKeepsPool` | fnlz_mlc.c:149-151 | A batch of fresh objects becomes the slot's list, and no other list changes. |
| `Refills.PrefixBatchKeepsPool` | fnlz_mlc.c:149-151 | A batch cut from the global list is exactly that list's first nodes. It becomes the slot's list while the global list keeps the rest, and the pool stays disjoint. |
| `Refills.SingleBatchKeepsPool` | fnlz_mlc.c:149-151 | The single object of `GC_generic_malloc_inner` becomes the slot's list, and only the global list of the class changes besides. |
| `Refills.MallocManyKeepsPool` | fnlz_mlc.c:149-151 | Whatever the batch's source, the batch becomes the slot's list and the pool stays disjoint. A batch from the global list is moved, not copied. No list other than the class's global list and the slot changes. |
| `ThreadLocal.RoundedUpGranulesAsWritten` | fnlz_mlc.c:130 | When the sum fits, the slot's granules hold the request and its extra byte, with less than one granule to spare. When the sum wraps, the request lands in class 0. |
| `ThreadLocal.RoundedUpGranules` | fnlz_mlc.c:130 | The saturating rounding gives the same class when the sum fits. Any class it gives that is small enough for a thread-local slot holds the request. |
| `ThreadLocal.ClassifySlot` | fnlz_mlc.c:143-145 | The loop's two unsigned tests classify a slot: 1..DIRECT_GRANULES is a direct count; NULL or a count up to the sentinel bound needs a refill; anything larger is a list head. |
| `ThreadLocal.DirectStep` | fnlz_mlc.c:146 | Adding `lg + 1` raises the count, which stays at most `DIRECT_GRANULES + GC_TINY_FREELISTS` and so is never a pointer. |
| `ThreadLocal.DirectAllocations` | fnlz_mlc.c:143-147 | A slot sends at most DIRECT_GRANULES allocations in a row to the global path before it asks for a batch. |
| `ThreadLocal.PopSlot` | fnlz_mlc.c:158-164 | Returns the slot's head with the class's bytes. The slot takes the head's link, and the head's first word becomes the tagged header. Nothing else changes: no other slot, no global head, no other word, not `GC_bytes_allocd`. |
| `ThreadLocal.MallocRequest` | fnlz_mlc.c:130-164 | The behaviour depends on the slot `lg` and what it holds: <br>• `lg` ≥ `GC_TINY_FREELISTS`: the global path's result, slots unchanged. <br>• Direct count: the count grows by `lg + 1`, and the global path serves the request. <br>• Refill with an empty batch: the out-of-memory handler's result for `lb`, with the slot NULL and the heap unchanged. <br>• Refill with a batch: the batch's first object is returned, the slot keeps the rest of the batch, and the global heads and counter are as `GC_generic_malloc_many` left them. <br>• List head: the head is returned, the slot takes its link, and the global lists and counter are untouched. <br>Only slot `lg` changes. Every returned object is tagged. It holds the request whenever the slot's class does, or the request went to the global path. |
| `ThreadLocal.FinalizedMalloc` | fnlz_mlc.c:126-137 | With both sums saturating: every object holds the header plus the client's bytes, and a request larger than the heap returns NULL with nothing changed. |
| `ThreadLocal.FinalizedMallocAsWritten` | fnlz_mlc.c:126-137 | With the request and slot as lines 129-130 compute them: the object holds the client's bytes whenever neither sum wraps. |
| `ThreadLocal.ThreadWrapServesTooFewBytes` | fnlz_mlc.c:129-164 | The client size 2^64 − 8 wraps at line 129 to a 0-byte request, which the code as written serves from the one-granule slot. The saturating request fails with NULL instead. |
| `ThreadLocal.RoundingWrapServesClassZero` | fnlz_mlc.c:129-164 | Client sizes 2^64 − 24 to 2^64 − 9 do not wrap at line 129. The rounding at line 130 wraps and picks slot 0. When slot 0 already holds a list, the code as written serves the request with an object of no granules. With both sums saturating, the same call fails with NULL and changes nothing. |
| `ThreadLocal.RoundingWrapFromCountFails` | fnlz_mlc.c:143-147 | For the same client sizes, when slot 0 still holds a count, line 147 passes the request to the global path, where it is too large and fails with NULL. |
| `ThreadLocal.OwnedIsReadable` | fnlz_mlc.c:143-158 | In a pool of the global and thread lists, every global head and every slot that holds a list is a readable object, which is what the next call of the allocator requires. |
| `ThreadLocal.FinalizedMallocKeepsOwnership` | fnlz_mlc.c:136-164 | Every call, for any request and slot, keeps the global and thread-local lists one disjoint pool, whether the batch is fresh or cut from the global list. The object it returns is on none of the lists. The state and slots it leaves meet the preconditions of the next call. |
| `ThreadLocal.OwnedRefillPop` | fnlz_mlc.c:149-162 | After a refill from any source, the batch's first object is a real list head and the batch has no repeated node. Popping it keeps the pool and takes that object off every list. |
| `ThreadLocal.OwnedPop` | fnlz_mlc.c:158-162 | Popping a slot's head keeps the pool and puts the popped object on no list. The slot's new value is NULL or a real object, never a count. |
| `ThreadLocal.TLAllocatedObjectIsFinalizedOnce` | fnlz_mlc.c:158-164 | Disclaiming an object from the thread-local path makes one call of its closure's procedure, on exactly the pointer the client received. |

## Left out

- Locking (`LOCK`/`UNLOCK`, `DCL_LOCK_STATE`) and all concurrency. The model is sequential. The lock only serialises the list operations it models.
- `GC_init`: only its effect is kept, a flag that the collector is ready.
- The collector routines outside this file are modelled by their effect on the finalized kind's lists and counter (`Refills`). What they bring in from the rest of the heap is a parameter, consulted at most once per call:
  - `GC_allocobj`, inside `GC_generic_malloc`: the objects it puts on an empty small list (`refill`; empty means it failed).
  - `GC_generic_malloc`: its reply for a large request, or the out-of-memory handler's value when a small refill fails (`generic`, constrained by `ValidReply`).
  - `GC_generic_malloc_many`: which of its strategies serves the batch (`Refills.BatchSource`). For reclaimed or new-block objects, the objects themselves are the parameter (`FreshBatch`). For the front of the global list, the number of objects taken is the parameter.
  - The out-of-memory handler on the thread-local path: a function from the requested byte count to the value it returns.
- Refills.MallocMany: the code stops taking objects from the global list once it has taken `HBLKSIZE` bytes' worth. The model leaves that count free. Ownership is proved for every count, so it holds for the code's count too.
- Refills.MallocMany: the front of an empty global list is an allowed source, and it gives an empty batch, so the thread goes to the out-of-memory handler. The code takes that strategy only when the global list is non-empty. The model over-approximates here, and ownership still holds.
- Refills.MallocMany: the strategy of `GC_generic_malloc_many` for objects too large for a size class never runs here: line 149 passes a tiny size. The `GC_manual_vdb` write-barrier calls are not modelled.
- Allocator.CoreMallocGenericKeepsLists: a collection started inside `GC_generic_malloc` or `GC_generic_malloc_many` can sweep blocks and rebuild free lists. The lists the lemmas speak of are the ones left by the last collection. A collection inside a call is not modelled, and neither are the objects it reclaims onto other lists.
- Allocator.CoreMallocKeepsOwnership: proved under the same no-collection assumption. The objects the collector supplies (`refill`, `generic`, the new objects of a batch) are required only to be on no free list. The model does not record which objects clients already hold, so it does not show that such an object was not handed out before.
- ThreadLocal.FinalizedMallocKeepsOwnership: proved under the same no-collection assumption. The same holds for the objects of a batch: they are required only to be on no free list, not to differ from objects already handed out.
- Allocator.CoreMallocRequest: `GC_bytes_allocd` on the large-object path, which `GC_generic_malloc` also raises, is left unchanged by the model. The small paths count it exactly.
- Header.LowBitIsAndOne: only the test `w & 1` is bridged to the 64-bit operation at the level of `Machine.Word`. For `w & ~1` and `w | 1` the bridge is proved on `bv64` only (`Bits`).
- The thread-local loop re-tests the slot after a refill. Batch objects are real addresses, so the re-test always leaves the loop. A collector that put a sentinel-range value in the slot is not modelled.
- `GC_new_free_list_inner` and `GC_new_kind_inner` are modelled by their observable effect (`EmptyStore`, `NewKind`).
- Allocator.InitFinalizedMalloc: requires a free kind-table slot on the first call. `GC_new_kind_inner` aborts the process when the table is full, and that abort is not modelled.
- `GC_size_map` is a fixed function. The code reads it lazily, and an entry may still be 0 until `GC_generic_malloc` extends the map (fnlz_mlc.c:103-104). The model requires a non-zero class for every small size, so the re-read of `lg` on the generic path has no effect.
- `GC_size(op)` is the size carried by the generic allocator's reply. The assertions `GC_ASSERT(done_init)` and `GC_ASSERT(op_sz >= lb)` become preconditions.
- `GC_clear_stack`, `PREFETCH_FOR_WRITE`, `GC_DBG_COLLECT_AT_MALLOC` and `GC_getspecific` are performance and debug hooks or a thread-key lookup. They are dropped, and the thread's slots are passed explicitly.
- The user finalizer is not executed. Disclaim emits the call it would make (`Disclaim.Call`).
- Memory contents beyond each object's first word, zero-initialisation, and the mark/sweep tracer are not modelled.
- `GC_bytes_allocd` is an unbounded counter. Its wrap-around after 2^64 bytes is not modelled.
- The out-of-memory handler's value is returned unchanged, exactly as the code does. It gets no header tag and is not offset by one word.

## Findings

| source | as written | input that shows it | evidently intended | confidence | as-written member | corrected member |
|---|---|---|---|---|---|---|
| fnlz_mlc.c:91 | `lb += sizeof(GC_word)` is a `size_t` sum and wraps past 2^64. | A client size of 2^64 − 8 gives `lb == 0`. This is a small request, and the global path serves it from a size-class list: a small object of at most `MAXOBJBYTES` bytes for a request of nearly 2^64 bytes (`Allocator.CoreWrapServesTooFewBytes`). | Saturate at SIZE_MAX, as later versions of the collector do with `SIZET_SAT_ADD`. The impossible request then goes to `GC_generic_malloc` as a large request and fails with NULL. | high; not executed | `Allocator.CoreFinalizedMallocAsWritten` | `Allocator.CoreFinalizedMalloc` |
| fnlz_mlc.c:129 | `size_t lb = client_lb + sizeof(GC_word)` wraps the same way. | The same client size gives `lb == 0` and `lg = ROUNDED_UP_GRANULES(0) = 1`, a tiny class. The thread-local slot then serves the request with one granule (`ThreadLocal.ThreadWrapServesTooFewBytes`). | Saturate here as well, and at line 130. The request is then not tiny and goes to `GC_core_finalized_malloc`, which fails. | high; not executed | `ThreadLocal.FinalizedMallocAsWritten` | `ThreadLocal.FinalizedMalloc` |
| fnlz_mlc.c:130 | `ROUNDED_UP_GRANULES(lb)` adds `GRANULE_BYTES - 1 + EXTRA_BYTES` to `lb` on a `size_t`, and that sum wraps too. | A client size from 2^64 − 24 to 2^64 − 9 does not wrap at line 129, but gives `lg == 0`. When slot 0 already holds a list, the code then serves a request of nearly 2^64 bytes with an object of no granules (`ThreadLocal.RoundingWrapServesClassZero`). From a count, the request instead goes to the global path and fails (`ThreadLocal.RoundingWrapFromCountFails`). | Saturate the rounding as well, as later versions of the collector do with `SIZET_SAT_ADD` inside `ROUNDED_UP_GRANULES`. The class is then too large for a slot, and the request goes to `GC_core_finalized_malloc`, which fails. | medium; not executed. The too-small object needs slot 0 to hold a list, and only `GC_generic_malloc_many` asked for 0-byte objects fills it; that routine is not part of this model. | `ThreadLocal.FinalizedMallocAsWritten` | `ThreadLocal.FinalizedMalloc` |

=== FILE: allocator.dfy ===
/** The global state of the finalized-allocation code, its once-only
    initialization, and the locked global allocation path
    (GC_core_finalized_malloc, which is GC_finalized_malloc itself when
    there are no thread-local free lists). */
module Allocator {
  import opened Machine
  import opened Header
  import opened FreeLists
  import opened Refills
  import opened Kinds
  import opened Disclaim

  /** Whether GC_init has run, the done_init latch, GC_finalized_kind, the
      kind table, and the heap with GC_finalized_objfreelist. */
  datatype State = State(
    collectorReady: bool,
    doneInit: bool,
    finalizedKind: nat,
    reg: Registry,
    heap: Heap)

  /** Once initialized, the finalized kind exists and its free-list store
      has one readable head per granule count. */
  predicate ValidState(st: State)
  {
    && Kinds.Valid(st.reg)
    && (st.doneInit ==>
          && st.collectorReady
          && st.finalizedKind < st.reg.nKinds
          && |st.heap.heads| == FREELIST_ENTRIES
          && HeadsReadable(st.heap))
  }

  /** GC_new_free_list_inner: a fresh store in which every list is empty. */
  function EmptyStore(): (heads: seq<Word>)
    ensures |heads| == FREELIST_ENTRIES
    ensures forall c :: 0 <= c < |heads| ==> heads[c] == NULL
  {
    seq(FREELIST_ENTRIES, _ => NULL)
  }

  /** GC_init_finalized_malloc.  The first call sets the latch, registers the
      one-word displacement, creates the free-list store and one new kind,
      and gives that kind GC_finalized_disclaim with mark-unconditionally
      set; every later call changes nothing.  GC_new_kind_inner aborts when
      the kind table is full, so the first call needs a free slot. */
  function InitFinalizedMalloc(st: State): (r: State)
    requires ValidState(st)
    requires st.doneInit || st.reg.nKinds < MAXOBJKINDS
    ensures ValidState(r) && r.doneInit && r.collectorReady
    ensures st.doneInit ==> r == st
    ensures !st.doneInit ==>
      && r.reg.nKinds == st.reg.nKinds + 1
      && r.finalizedKind == st.reg.nKinds
      && r.reg.kinds[r.finalizedKind] == ObjKind(GC_DS_LENGTH, true, true, FinalizedDisclaimProc, 1)
      && (forall k :: 0 <= k < MAXOBJKINDS && k != r.finalizedKind ==> r.reg.kinds[k] == st.reg.kinds[k])
      && r.reg.displacements == st.reg.displacements + {WORD_BYTES}
      && r.heap == st.heap.(heads := EmptyStore())
  {
    var ready := st.(collectorReady := true);
    if ready.doneInit then
      ready
    else
      var reg1 := RegisterDisplacement(ready.reg, WORD_BYTES);
      var (reg2, kind) := NewKind(reg1, GC_DS_LENGTH, true, true);
      var reg3 := RegisterDisclaimProc(reg2, kind, FinalizedDisclaimProc, 1);
      State(true, true, kind, reg3, ready.heap.(heads := EmptyStore()))
  }

  /** `n` successive calls of GC_init_finalized_malloc. */
  function InitCalls(st: State, n: nat): (r: State)
    requires ValidState(st)
    requires st.doneInit || st.reg.nKinds < MAXOBJKINDS
    ensures ValidState(r)
    ensures n > 0 ==> r.doneInit
    decreases n
  {
    if n == 0 then st else InitCalls(InitFinalizedMalloc(st), n - 1)
  }

  /** However many times it is called, initialization registers exactly one
      kind: n >= 1 calls leave the state the first call leaves. */
  lemma {:induction false} InitCallsRegisterOnce(st: State, n: nat)
    requires ValidState(st)
    requires st.doneInit || st.reg.nKinds < MAXOBJKINDS
    requires n > 0
    ensures InitCalls(st, n) == InitFinalizedMalloc(st)
    ensures !st.doneInit ==> InitCalls(st, n).reg.nKinds == st.reg.nKinds + 1
    ensures st.doneInit ==> InitCalls(st, n) == st
    decreases n
  {
    if n > 1 {
      var first := InitFinalizedMalloc(st);
      InitCallsRegisterOnce(first, n - 1);
    }
  }

  /** GC_size_map, the table from small request sizes to size classes,
      which is filled in outside this model. */
  datatype Collector = Collector(sizeMap: nat -> nat)

  /** What the code relies on: a small request maps to a non-empty size
      class no larger than the biggest small object, whose objects hold the
      request. */
  ghost predicate ValidCollector(col: Collector)
  {
    forall b: nat :: SmallObj(b) ==> 0 < col.sizeMap(b) <= MAXOBJGRANULES && b <= GranulesToBytes(col.sizeMap(b))
  }

  /** An object handed out by an allocator, or its NULL. */
  datatype Reply = NoMemory | Object(base: Word, bytes: nat)

  /** GC_generic_malloc's promise: NULL, or an object in the heap of at
      least the requested size. */
  predicate ValidReply(reply: Reply, lb: nat)
  {
    reply.Object? ==> InHeap(reply.base, reply.bytes) && lb <= reply.bytes
  }

  /** The pointer the caller receives: one word past the header, or NULL. */
  function ClientPointer(reply: Reply): (p: Word)
    ensures reply.Object? && IsObject(reply.base) ==> p == reply.base + WORD_BYTES
    ensures reply.NoMemory? ==> p == NULL
  {
    match reply
    case NoMemory => NULL
    case Object(base, _) => Payload(base)
  }

  /** The allocation request for a client size as the source computes it:
      `lb += sizeof(GC_word)` on a size_t, which wraps. */
  function RequestBytesAsWritten(clientLb: Word): (lb: Word)
    ensures clientLb + WORD_BYTES < WORD_MODULUS ==> lb == clientLb + WORD_BYTES
    ensures clientLb + WORD_BYTES >= WORD_MODULUS ==> lb < clientLb
  {
    (clientLb + WORD_BYTES) % WORD_MODULUS
  }

  /** The request with the header word added, saturating at SIZE_MAX as
      SIZET_SAT_ADD does: it never falls below the client size, and a
      saturated request is never small. */
  function RequestBytes(clientLb: Word): (lb: Word)
    ensures clientLb <= lb
    ensures clientLb + WORD_BYTES < SIZE_MAX ==> lb == clientLb + WORD_BYTES
    ensures lb < clientLb + WORD_BYTES ==> lb == SIZE_MAX && !SmallObj(lb)
  {
    if clientLb < SIZE_MAX - WORD_BYTES then clientLb + WORD_BYTES else SIZE_MAX
  }

  /** `*(GC_word *)op = (GC_word)fclos | 1`. */
  function WriteHeader(h: Heap, op: Word, fclos: Word): (r: Heap)
    ensures r.heads == h.heads && r.bytesAllocd == h.bytesAllocd
    ensures r.mem.Keys == h.mem.Keys + {op}
    ensures r.mem[op] == Tag(fclos)
    ensures forall a :: a in h.mem && a != op ==> r.mem[a] == h.mem[a]
  {
    h.(mem := h.mem[op := Tag(fclos)])
  }

  /** The list a small request is served from. */
  function SizeClass(col: Collector, lb: nat): (lg: nat)
    requires ValidCollector(col) && SmallObj(lb)
    ensures 0 < lg < FREELIST_ENTRIES && lb <= GranulesToBytes(lg)
  {
    col.sizeMap(lb)
  }

  /** The small path finds a node on its size class's list. */
  predicate FromFreeList(st: State, col: Collector, lb: nat)
    requires ValidCollector(col)
    requires |st.heap.heads| == FREELIST_ENTRIES
  {
    SmallObj(lb) && st.heap.heads[SizeClass(col, lb)] != NULL
  }

  /** GC_generic_malloc refills an empty small size class from GC_allocobj
      and pops it. */
  predicate FromRefill(st: State, col: Collector, lb: nat, refill: seq<Word>)
    requires ValidCollector(col)
    requires |st.heap.heads| == FREELIST_ENTRIES
  {
    SmallObj(lb) && st.heap.heads[SizeClass(col, lb)] == NULL && refill != []
  }

  /** Tags the header of what GC_generic_malloc returned, or passes its
      NULL on with nothing written. */
  function TagGeneric(st: State, fclos: Word, generic: Reply): (State, Reply)
  {
    match generic
    case NoMemory => (st, NoMemory)
    case Object(op, bytes) => (st.(heap := WriteHeader(st.heap, op, fclos)), Object(op, bytes))
  }

  /** The body of GC_core_finalized_malloc once `lb`, the request with the
      header word, is known.  A small request pops its size class's list
      under the lock.  When that list is empty, GC_generic_malloc pops it
      after GC_allocobj has filled it with `refill`.  When the refill fails,
      or the request is large, the reply is `generic`: a large object, or
      what the out-of-memory handler inside GC_generic_malloc returned.
      Its NULL is passed on with nothing written.  On success the header is
      tagged with `fclos`. */
  function CoreMallocRequest(st: State, col: Collector, lb: Word, fclos: Word, refill: seq<Word>, generic: Reply): (r: (State, Reply))
    requires ValidState(st) && st.doneInit
    requires ValidCollector(col)
    requires FreshBatch(refill) && ValidReply(generic, lb)
    ensures r.0.(heap := st.heap) == st
    ensures r.1.NoMemory? <==> generic.NoMemory? && !FromFreeList(st, col, lb) && !FromRefill(st, col, lb, refill)
    ensures r.1.NoMemory? ==> r.0 == st
    ensures r.1.Object? ==>
      && IsObject(r.1.base)
      && r.1.base in r.0.heap.mem && r.0.heap.mem[r.1.base] == Tag(fclos)
      && lb <= r.1.bytes
      && ClientPointer(r.1) == r.1.base + WORD_BYTES
    ensures FromFreeList(st, col, lb) ==>
      var lg := SizeClass(col, lb);
      && r.1 == Object(st.heap.heads[lg], GranulesToBytes(lg))
      && r.0.heap.bytesAllocd == st.heap.bytesAllocd + GranulesToBytes(lg)
    ensures FromRefill(st, col, lb, refill) ==>
      var lg := SizeClass(col, lb);
      && r.1 == Object(refill[0], GranulesToBytes(lg))
      && r.0.heap.bytesAllocd == st.heap.bytesAllocd + GranulesToBytes(lg)
    ensures !FromFreeList(st, col, lb) && !FromRefill(st, col, lb, refill) ==>
      r.1 == generic && r.0.heap.heads == st.heap.heads && r.0.heap.bytesAllocd == st.heap.bytesAllocd
  {
    if SmallObj(lb) then
      var lg := SizeClass(col, lb);
      if st.heap.heads[lg] != NULL then
        var (h, op) := PopFree(st.heap, lg);
        (st.(heap := WriteHeader(h, op, fclos)), Object(op, GranulesToBytes(lg)))
      else
        var (h, op) := MallocInner(st.heap, lg, refill);
        if op != NULL then
          (st.(heap := WriteHeader(h, op, fclos)), Object(op, GranulesToBytes(lg)))
        else
          TagGeneric(st, fclos, generic)
    else
      TagGeneric(st, fclos, generic)
  }

  /** GC_core_finalized_malloc with the request computed by the saturating
      addition of RequestBytes.  Every object it returns holds the header
      word followed by the client's bytes, and a request too large to
      represent fails with NULL. */
  function CoreFinalizedMalloc(st: State, col: Collector, clientLb: Word, fclos: Word, refill: seq<Word>, generic: Reply): (r: (State, Reply))
    requires ValidState(st) && st.doneInit
    requires ValidCollector(col)
    requires FreshBatch(refill) && ValidReply(generic, RequestBytes(clientLb))
    ensures r.1.Object? ==> clientLb + WORD_BYTES <= r.1.bytes && ClientPointer(r.1) == r.1.base + WORD_BYTES
    ensures clientLb + WORD_BYTES >= SIZE_MAX ==> r == (st, NoMemory)
  {
    CoreMallocRequest(st, col, RequestBytes(clientLb), fclos, refill, generic)
  }

  /** GC_core_finalized_malloc with the request as fnlz_mlc.c:91 computes it.
      Only when the addition does not wrap does the object hold the
      client's bytes. */
  function CoreFinalizedMallocAsWritten(st: State, col: Collector, clientLb: Word, fclos: Word, refill: seq<Word>, generic: Reply): (r: (State, Reply))
    requires ValidState(st) && st.doneInit
    requires ValidCollector(col)
    requires FreshBatch(refill) && ValidReply(generic, RequestBytesAsWritten(clientLb))
    ensures clientLb + WORD_BYTES < WORD_MODULUS && r.1.Object? ==> clientLb + WORD_BYTES <= r.1.bytes
  {
    CoreMallocRequest(st, col, RequestBytesAsWritten(clientLb), fclos, refill, generic)
  }

  /** The client size 2^64 - 8 wraps to a zero-byte request, which the
      code as written serves from a size-class list with an object of a few
      granules; with the saturating request the same call fails with
      NULL. */
  lemma CoreWrapServesTooFewBytes(st: State, col: Collector, fclos: Word, refill: seq<Word>, generic: Reply)
    requires ValidState(st) && st.doneInit
    requires ValidCollector(col)
    requires FreshBatch(refill) && ValidReply(generic, 0)
    requires st.heap.heads[SizeClass(col, 0)] != NULL
    ensures var clientLb: Word := SIZE_MAX - 7;
      var r := CoreFinalizedMallocAsWritten(st, col, clientLb, fclos, refill, generic);
      && RequestBytesAsWritten(clientLb) == 0
      && r.1.Object? && r.1.bytes < clientLb + WORD_BYTES
      && CoreFinalizedMalloc(st, col, clientLb, fclos, refill, NoMemory) == (st, NoMemory)
  {
    var clientLb: Word := SIZE_MAX - 7;
    assert RequestBytesAsWritten(clientLb) == 0;
    assert SmallObj(0) && FromFreeList(st, col, 0);
  }

  /** A small request whose list is non-empty returns the list's first node,
      leaves the rest of that list in its place, counts the granules in
      GC_bytes_allocd and takes the node off every list; no other list
      changes.  `extra` are the heads of any further lists threaded through
      the same memory (a thread's own lists). */
  lemma CoreMallocPopsHead(st: State, col: Collector, lb: Word, fclos: Word, refill: seq<Word>, generic: Reply,
                           extra: seq<Word>, lists: seq<seq<Word>>)
    requires ValidState(st) && st.doneInit
    requires ValidCollector(col)
    requires FreshBatch(refill) && ValidReply(generic, lb)
    requires Pool(st.heap.mem, st.heap.heads + extra, lists)
    requires SmallObj(lb)
    requires lists[SizeClass(col, lb)] != []
    ensures var lg := SizeClass(col, lb);
      var r := CoreMallocRequest(st, col, lb, fclos, refill, generic);
      var lists' := lists[lg := lists[lg][1..]];
      && r.1 == Object(lists[lg][0], GranulesToBytes(lg))
      && Pool(r.0.heap.mem, r.0.heap.heads + extra, lists')
      && !OnSomeList(lists', r.1.base)
      && r.0.heap.bytesAllocd == st.heap.bytesAllocd + GranulesToBytes(lg)
  {
    var lg := SizeClass(col, lb);
    var heads := st.heap.heads + extra;
    var lists' := lists[lg := lists[lg][1..]];
    assert heads[lg] == st.heap.heads[lg];
    PoolPop(st.heap.mem, heads, lists, lg, NULL);
    var (h, op) := PopFree(st.heap, lg);
    assert h.heads + extra == heads[lg := st.heap.mem[op]];
    PoolFrame(h.mem, h.heads + extra, lists', op, Tag(fclos));
  }

  /** A small request whose list is empty is served by GC_generic_malloc
      from the same list: the list becomes the refill less its first
      object, which is returned and is on no list; no other list
      changes. */
  lemma CoreMallocRefillsList(st: State, col: Collector, lb: Word, fclos: Word, refill: seq<Word>, generic: Reply,
                              extra: seq<Word>, lists: seq<seq<Word>>)
    requires ValidState(st) && st.doneInit
    requires ValidCollector(col)
    requires FreshBatch(refill) && ValidReply(generic, lb)
    requires Pool(st.heap.mem, st.heap.heads + extra, lists)
    requires forall i :: 0 <= i < |refill| ==> !OnSomeList(lists, refill[i])
    requires FromRefill(st, col, lb, refill)
    ensures var lg := SizeClass(col, lb);
      var r := CoreMallocRequest(st, col, lb, fclos, refill, generic);
      var lists' := lists[lg := refill[1..]];
      && r.1 == Object(refill[0], GranulesToBytes(lg))
      && Pool(r.0.heap.mem, r.0.heap.heads + extra, lists')
      && !OnSomeList(lists', r.1.base)
  {
    var lg := SizeClass(col, lb);
    var lists1 := MallocInnerKeepsPool(st.heap, extra, lists, lg, refill);
    assert lists1 == lists[lg := refill[1..]];
    var (h, op) := MallocInner(st.heap, lg, refill);
    PoolFrame(h.mem, h.heads + extra, lists1, op, Tag(fclos));
  }

  /** When GC_generic_malloc's reply does not come from the kind's lists (a
      large object, or the out-of-memory handler's value) and is on none of
      them, every list stays as it was. */
  lemma CoreMallocGenericKeepsLists(st: State, col: Collector, lb: Word, fclos: Word, refill: seq<Word>, generic: Reply,
                                    extra: seq<Word>, lists: seq<seq<Word>>)
    requires ValidState(st) && st.doneInit
    requires ValidCollector(col)
    requires FreshBatch(refill) && ValidReply(generic, lb)
    requires Pool(st.heap.mem, st.heap.heads + extra, lists)
    requires !FromFreeList(st, col, lb) && !FromRefill(st, col, lb, refill)
    requires generic.Object? ==> !OnSomeList(lists, generic.base)
    ensures var r := CoreMallocRequest(st, col, lb, fclos, refill, generic);
      && Pool(r.0.heap.mem, r.0.heap.heads + extra, lists)
      && (r.1.Object? ==> !OnSomeList(lists, r.1.base))
  {
    if generic.Object? {
      PoolFrame(st.heap.mem, st.heap.heads + extra, lists, generic.base, Tag(fclos));
    }
  }

  /** Whatever path it takes, the global allocator keeps every list of the
      pool a list, the object it returns is on none of them, and the state
      it leaves is ready for the next call. */
  lemma CoreMallocKeepsOwnership(st: State, col: Collector, lb: Word, fclos: Word, refill: seq<Word>, generic: Reply,
                                 extra: seq<Word>, lists: seq<seq<Word>>)
    returns (lists': seq<seq<Word>>)
    requires ValidState(st) && st.doneInit
    requires ValidCollector(col)
    requires FreshBatch(refill) && ValidReply(generic, lb)
    requires Pool(st.heap.mem, st.heap.heads + extra, lists)
    requires forall i :: 0 <= i < |refill| ==> !OnSomeList(lists, refill[i])
    requires generic.Object? ==> !OnSomeList(lists, generic.base)
    ensures var r := CoreMallocRequest(st, col, lb, fclos, refill, generic);
      && Pool(r.0.heap.mem, r.0.heap.heads + extra, lists')
      && (r.1.Object? ==> !OnSomeList(lists', r.1.base))
      && ValidState(r.0)
  {
    if FromFreeList(st, col, lb) {
      var lg := SizeClass(col, lb);
      PoolHeadReadable(st.heap.mem, st.heap.heads + extra, lists, lg);
      CoreMallocPopsHead(st, col, lb, fclos, refill, generic, extra, lists);
      lists' := lists[lg := lists[lg][1..]];
    } else if FromRefill(st, col, lb, refill) {
      CoreMallocRefillsList(st, col, lb, fclos, refill, generic, extra, lists);
      lists' := lists[SizeClass(col, lb) := refill[1..]];
    } else {
      CoreMallocGenericKeepsLists(st, col, lb, fclos, refill, generic, extra, lists);
      lists' := lists;
    }
    var r := CoreMallocRequest(st, col, lb, fclos, refill, generic);
    PoolReadable(r.0.heap, extra, lists');
  }

  /** Every node on a free list is a fragment: disclaiming it runs no
      finalizer. */
  lemma FreeListNodesAreNotFinalized(mem: Memory, heads: seq<Word>, lists: seq<seq<Word>>, closures: Closures, c: nat, i: nat)
    requires Pool(mem, heads, lists) && c < |lists| && i < |lists[c]|
    ensures Disclaimable(mem, closures, lists[c][i])
    ensures FinalizedDisclaim(mem, closures, lists[c][i]) == Outcome(0, [])
  {
    assert Linked(mem, heads[c], lists[c]);
    var node := lists[c][i];
    if i + 1 < |lists[c]| {
      assert mem[node] == lists[c][i + 1];
      assert IsObject(lists[c][i + 1]);
    }
    FragmentIsNotFinalized(mem, closures, node);
  }

  /** An object this allocator hands out is later disclaimed by one call of
      its closure's procedure, on exactly the pointer the client received. */
  lemma AllocatedObjectIsFinalizedOnce(st: State, col: Collector, lb: Word, fclos: Word, refill: seq<Word>, generic: Reply,
                                       closures: Closures)
    requires ValidState(st) && st.doneInit
    requires ValidCollector(col)
    requires FreshBatch(refill) && ValidReply(generic, lb)
    requires Aligned(fclos) && fclos in closures
    requires CoreMallocRequest(st, col, lb, fclos, refill, generic).1.Object?
    ensures var r := CoreMallocRequest(st, col, lb, fclos, refill, generic);
      && Disclaimable(r.0.heap.mem, closures, r.1.base)
      && FinalizedDisclaim(r.0.heap.mem, closures, r.1.base)
         == Outcome(0, [Call(closures[fclos].proc, ClientPointer(r.1), closures[fclos].cd)])
  {
    var r := CoreMallocRequest(st, col, lb, fclos, refill, generic);
    TaggedIsFinalizedOnce(r.0.heap.mem, closures, r.1.base, fclos);
  }
}

=== FILE: bits.dfy ===
/** The header protocol only ever tests, clears or sets bit 0 of a word.
    The rest of the model writes those three operations arithmetically on
    `Machine.Word`; the lemmas here show, on 64-bit vectors, that each
    arithmetic form is the bitwise operation the C code applies. */
module Bits {

  /** `w & 1` is the remainder of `w` modulo two. */
  lemma AndOneIsLowBit(w: bv64)
    ensures w & 1 == w % 2
  {
  }

  /** `w & ~(GC_word)1` subtracts that remainder. */
  lemma AndNotOneClearsLowBit(w: bv64)
    ensures w & !1 == w - w % 2
  {
  }

  /** `w | 1` rounds `w` down to even and adds one. */
  lemma OrOneSetsLowBit(w: bv64)
    ensures w | 1 == w - w % 2 + 1
  {
  }
}

=== FILE: disclaim.dfy ===
/** GC_finalized_disclaim: the procedure the collector's reclaim phase
    calls on every unreachable object of the finalized kind. */
module Disclaim {
  import opened Machine
  import opened Header

  /** struct GC_finalizer_closure: a finalizer procedure and its client data. */
  datatype Closure = Closure(proc: Word, cd: Word)

  /** The caller-owned closures, by address. */
  type Closures = map<Word, Closure>

  /** One invocation `(*proc)(obj, cd)` of a finalizer. */
  datatype Call = Call(proc: Word, obj: Word, cd: Word)

  /** The value a disclaim procedure returns (non-zero keeps the object
      alive) and the finalizer calls it makes, in order. */
  datatype Outcome = Outcome(retained: int, calls: seq<Call>)

  /** The object's header can be read and, when it is tagged, names a
      closure the caller keeps alive. */
  predicate Disclaimable(mem: Memory, closures: Closures, obj: Word)
  {
    obj in mem && (IsLive(mem[obj]) ==> ClearLowBit(mem[obj]) in closures)
  }

  /** Runs the finalizer of a live object exactly once, skips a free-list
      fragment, and never retains the object. */
  function FinalizedDisclaim(mem: Memory, closures: Closures, obj: Word): (r: Outcome)
    requires Disclaimable(mem, closures, obj)
    ensures r.retained == 0
    ensures |r.calls| <= 1
    ensures r.calls != [] <==> Decode(mem[obj]).Live?
    ensures r.calls != [] ==>
      var fc := closures[Decode(mem[obj]).closure];
      r.calls[0] == Call(fc.proc, Payload(obj), fc.cd)
  {
    var fcWord := mem[obj];
    if LowBit(fcWord) != 0 then
      var fc := closures[ClearLowBit(fcWord)];
      Outcome(0, [Call(fc.proc, Payload(obj), fc.cd)])
    else
      Outcome(0, [])
  }

  /** A fragment whose header is a link to the next fragment (aligned, NULL
      included) makes no call. */
  lemma FragmentIsNotFinalized(mem: Memory, closures: Closures, obj: Word)
    requires obj in mem
    requires Aligned(mem[obj])
    ensures Disclaimable(mem, closures, obj)
    ensures FinalizedDisclaim(mem, closures, obj) == Outcome(0, [])
  {
    FragmentLinkIsInert(mem[obj]);
  }

  /** An object whose header was tagged with closure address `fclos` gets
      one call of that closure's procedure, on the word after the header. */
  lemma TaggedIsFinalizedOnce(mem: Memory, closures: Closures, obj: Word, fclos: Word)
    requires obj in mem && mem[obj] == Tag(fclos)
    requires Aligned(fclos) && fclos in closures
    ensures Disclaimable(mem, closures, obj)
    ensures FinalizedDisclaim(mem, closures, obj)
         == Outcome(0, [Call(closures[fclos].proc, Payload(obj), closures[fclos].cd)])
  {
    TagRoundTrip(fclos);
  }
}

=== FILE: freelists.dfy ===
/** Free lists threaded through the first word of their objects.

    The C code only ever holds a list's head; the model pairs that head with
    the sequence of nodes it reaches, and proves what unlinking the head does
    to this list and to every other one. */
module FreeLists {
  import opened Machine
  import opened Header

  /** `nodes` is the whole list that starts at `head`: each node's first word
      links to the next node and the last one holds NULL. */
  predicate Linked(mem: Memory, head: Word, nodes: seq<Word>)
  {
    && (if nodes == [] then head == NULL else head == nodes[0])
    && (forall i :: 0 <= i < |nodes| ==> IsObject(nodes[i]) && nodes[i] in mem)
    && (forall i :: 0 <= i < |nodes| - 1 ==> mem[nodes[i]] == nodes[i + 1])
    && (nodes != [] ==> mem[nodes[|nodes| - 1]] == NULL)
  }

  predicate NoDuplicates(s: seq<Word>)
  {
    forall i, j :: 0 <= i < j < |s| ==> s[i] != s[j]
  }

  /** No node is on two of the lists. */
  predicate Disjoint(lists: seq<seq<Word>>)
  {
    forall c, d, i, j ::
      (0 <= c < |lists| && 0 <= d < |lists| && c != d &&
       0 <= i < |lists[c]| && 0 <= j < |lists[d]|) ==> lists[c][i] != lists[d][j]
  }

  predicate OnSomeList(lists: seq<seq<Word>>, a: Word)
  {
    exists c, i :: 0 <= c < |lists| && 0 <= i < |lists[c]| && lists[c][i] == a
  }

  /** If a node repeats in a linked list, the list repeats from there on:
      the links are a function of the node. */
  lemma {:induction false} RepeatPropagates(mem: Memory, head: Word, nodes: seq<Word>, i: nat, j: nat, k: nat)
    requires Linked(mem, head, nodes)
    requires i < j && j + k < |nodes| && nodes[i] == nodes[j]
    ensures nodes[i + k] == nodes[j + k]
  {
    if k > 0 {
      RepeatPropagates(mem, head, nodes, i, j, k - 1);
      assert nodes[i + k] == mem[nodes[i + k - 1]];
      assert nodes[j + k] == mem[nodes[j + k - 1]];
    }
  }

  /** A NULL-terminated list never visits a node twice, so unlinking a node
      can never leave a second copy of it behind. */
  lemma LinkedHasNoDuplicates(mem: Memory, head: Word, nodes: seq<Word>)
    requires Linked(mem, head, nodes)
    ensures NoDuplicates(nodes)
  {
    forall i, j | 0 <= i < j < |nodes|
      ensures nodes[i] != nodes[j]
    {
      var last := |nodes| - 1;
      var k := last - j;
      if nodes[i] == nodes[j] {
        RepeatPropagates(mem, head, nodes, i, j, k);
      }
      // node i + k is not the last one, so its link is a real node, while
      // the last node's link is NULL
      assert mem[nodes[i + k]] == nodes[i + k + 1] != NULL;
    }
  }

  /** Writing the first word of an object that is not on a list leaves the
      list intact. */
  lemma LinkedFrame(mem: Memory, head: Word, nodes: seq<Word>, a: Word, v: Word)
    requires Linked(mem, head, nodes)
    requires forall i :: 0 <= i < |nodes| ==> nodes[i] != a
    ensures Linked(mem[a := v], head, nodes)
  {
  }

  /** Unlinking the head of a non-empty list leaves its tail as the list
      that starts at the head's old link. */
  lemma LinkedTail(mem: Memory, head: Word, nodes: seq<Word>, v: Word)
    requires Linked(mem, head, nodes) && nodes != []
    ensures head in mem && Linked(mem[head := v], mem[head], nodes[1..])
  {
    LinkedHasNoDuplicates(mem, head, nodes);
    var tail := nodes[1..];
    assert forall i :: 0 <= i < |tail| ==> tail[i] == nodes[i + 1];
    LinkedFrame(mem, mem[head], tail, head, v);
  }

  /** A non-empty list goes on, from its head's link, as the list of its
      remaining nodes. */
  lemma LinkedRest(mem: Memory, head: Word, nodes: seq<Word>)
    requires Linked(mem, head, nodes) && nodes != []
    ensures head in mem && Linked(mem, mem[head], nodes[1..])
  {
    var tail := nodes[1..];
    assert forall i :: 0 <= i < |tail| ==> tail[i] == nodes[i + 1];
  }

  /** The nodes met by following at most `n` links from `p`, stopping at
      NULL.  So that it is defined on any memory, the walk also stops at a
      word that is not a tracked object, which no list holds. */
  function Walk(mem: Memory, p: Word, n: nat): (nodes: seq<Word>)
    ensures |nodes| <= n
    ensures nodes != [] ==> nodes[0] == p
    ensures forall i :: 0 <= i < |nodes| ==> IsObject(nodes[i]) && nodes[i] in mem
    ensures forall i :: 0 <= i < |nodes| - 1 ==> mem[nodes[i]] == nodes[i + 1]
    decreases n
  {
    if n == 0 || !IsObject(p) || p !in mem then [] else [p] + Walk(mem, mem[p], n - 1)
  }

  /** Walking a list gives its first `n` nodes, or all of them when the
      list is shorter. */
  lemma {:induction false} WalkOfLinked(mem: Memory, head: Word, nodes: seq<Word>, n: nat)
    requires Linked(mem, head, nodes)
    ensures Walk(mem, head, n) == nodes[..if n < |nodes| then n else |nodes|]
    decreases n
  {
    if n > 0 && nodes != [] {
      LinkedRest(mem, head, nodes);
      WalkOfLinked(mem, mem[head], nodes[1..], n - 1);
      var m := if n - 1 < |nodes| - 1 then n - 1 else |nodes| - 1;
      assert nodes[..m + 1] == [nodes[0]] + nodes[1..][..m];
    }
  }

  /** Cutting a list after its `k`-th node (`obj_link(p) = 0`) leaves two
      lists: the first `k` nodes from the old head, and the others from the
      cut node's old link. */
  lemma LinkedSplit(mem: Memory, head: Word, nodes: seq<Word>, k: nat)
    requires Linked(mem, head, nodes) && 0 < k <= |nodes|
    ensures nodes[k - 1] in mem
    ensures Linked(mem[nodes[k - 1] := NULL], head, nodes[..k])
    ensures Linked(mem[nodes[k - 1] := NULL], mem[nodes[k - 1]], nodes[k..])
  {
    LinkedHasNoDuplicates(mem, head, nodes);
    var last := nodes[k - 1];
    var mem' := mem[last := NULL];
    var pre := nodes[..k];
    var post := nodes[k..];
    forall i | 0 <= i < |pre| - 1
      ensures mem'[pre[i]] == pre[i + 1]
    {
      assert pre[i] == nodes[i] != last;
    }
    forall i | 0 <= i < |post|
      ensures post[i] != last && (i < |post| - 1 ==> mem'[post[i]] == post[i + 1])
    {
      assert post[i] == nodes[k + i];
    }
    if post != [] {
      assert mem[last] == nodes[k];
      assert post[|post| - 1] == nodes[|nodes| - 1];
    }
  }

  /** A pool of disjoint lists, `lists[c]` being the one that starts at
      `heads[c]`. */
  predicate Pool(mem: Memory, heads: seq<Word>, lists: seq<seq<Word>>)
  {
    && |lists| == |heads|
    && (forall c :: 0 <= c < |lists| ==> Linked(mem, heads[c], lists[c]))
    && Disjoint(lists)
  }

  /** Unlinking the head of list `c` and writing `v` into it leaves that
      list's tail in its place, keeps every other list, and puts the node on
      no list. */
  lemma PoolPop(mem: Memory, heads: seq<Word>, lists: seq<seq<Word>>, c: nat, v: Word)
    requires Pool(mem, heads, lists) && c < |lists| && lists[c] != []
    ensures heads[c] == lists[c][0] && heads[c] in mem
    ensures Pool(mem[heads[c] := v], heads[c := mem[heads[c]]], lists[c := lists[c][1..]])
    ensures !OnSomeList(lists[c := lists[c][1..]], heads[c])
  {
    assert Linked(mem, heads[c], lists[c]);
    var op := heads[c];
    var mem' := mem[op := v];
    var heads' := heads[c := mem[op]];
    var lists' := lists[c := lists[c][1..]];
    LinkedHasNoDuplicates(mem, op, lists[c]);
    forall d | 0 <= d < |lists'|
      ensures Linked(mem', heads'[d], lists'[d])
    {
      if d == c {
        LinkedTail(mem, op, lists[c], v);
      } else {
        assert Linked(mem, heads[d], lists[d]);
        assert forall i :: 0 <= i < |lists[d]| ==> lists[d][i] != op by {
          forall i | 0 <= i < |lists[d]|
            ensures lists[d][i] != op
          {
            assert lists[c][0] == op;
          }
        }
        LinkedFrame(mem, heads[d], lists[d], op, v);
      }
    }
    assert Disjoint(lists') by {
      forall d, e, i, j |
        0 <= d < |lists'| && 0 <= e < |lists'| && d != e &&
        0 <= i < |lists'[d]| && 0 <= j < |lists'[e]|
        ensures lists'[d][i] != lists'[e][j]
      {
        var i0 := if d == c then i + 1 else i;
        var j0 := if e == c then j + 1 else j;
        assert lists'[d][i] == lists[d][i0];
        assert lists'[e][j] == lists[e][j0];
      }
    }
    forall d, i | 0 <= d < |lists'| && 0 <= i < |lists'[d]|
      ensures lists'[d][i] != op
    {
      if d == c {
        assert lists'[d][i] == lists[c][i + 1];
      } else {
        assert lists'[d][i] == lists[d][i];
      }
    }
  }

  /** Writing the first word of an object that is on no list keeps every
      list intact. */
  lemma PoolFrame(mem: Memory, heads: seq<Word>, lists: seq<seq<Word>>, a: Word, v: Word)
    requires Pool(mem, heads, lists) && !OnSomeList(lists, a)
    ensures Pool(mem[a := v], heads, lists)
  {
    forall c | 0 <= c < |lists|
      ensures Linked(mem[a := v], heads[c], lists[c])
    {
      assert forall i :: 0 <= i < |lists[c]| ==> lists[c][i] != a;
      LinkedFrame(mem, heads[c], lists[c], a, v);
    }
  }

  /** Moving the first `k` nodes of list `c` to the empty list `d` by
      cutting after the `k`-th node keeps the pool: list `c` keeps the
      rest, from the cut node's old link. */
  lemma PoolSplit(mem: Memory, heads: seq<Word>, lists: seq<seq<Word>>, c: nat, d: nat, k: nat)
    requires Pool(mem, heads, lists) && c < |lists| && d < |lists| && c != d
    requires lists[d] == [] && 0 < k <= |lists[c]|
    ensures lists[c][k - 1] in mem
    ensures Pool(mem[lists[c][k - 1] := NULL],
                 heads[c := mem[lists[c][k - 1]]][d := lists[c][0]],
                 lists[c := lists[c][k..]][d := lists[c][..k]])
  {
    assert Linked(mem, heads[c], lists[c]);
    LinkedHasNoDuplicates(mem, heads[c], lists[c]);
    LinkedSplit(mem, heads[c], lists[c], k);
    var last := lists[c][k - 1];
    var mem' := mem[last := NULL];
    var heads' := heads[c := mem[last]][d := lists[c][0]];
    var lists' := lists[c := lists[c][k..]][d := lists[c][..k]];
    forall e | 0 <= e < |lists'| && e != c && e != d
      ensures Linked(mem', heads'[e], lists'[e])
    {
      assert Linked(mem, heads[e], lists[e]);
      forall i | 0 <= i < |lists[e]|
        ensures lists[e][i] != last
      {
        assert lists[c][k - 1] == last;
      }
      LinkedFrame(mem, heads[e], lists[e], last, NULL);
    }
    assert Disjoint(lists') by {
      forall e, f, i, j |
        0 <= e < |lists'| && 0 <= f < |lists'| && e != f &&
        0 <= i < |lists'[e]| && 0 <= j < |lists'[f]|
        ensures lists'[e][i] != lists'[f][j]
      {
        var e0 := if e == d then c else e;
        var i0 := if e == c then k + i else i;
        var f0 := if f == d then c else f;
        var j0 := if f == c then k + j else j;
        assert lists'[e][i] == lists[e0][i0];
        assert lists'[f][j] == lists[f0][j0];
        assert e0 != f0 || i0 != j0;
      }
    }
  }

  /** A list head in a pool is NULL or a readable object. */
  lemma PoolHeadReadable(mem: Memory, heads: seq<Word>, lists: seq<seq<Word>>, c: nat)
    requires Pool(mem, heads, lists) && c < |heads|
    ensures heads[c] == NULL <==> lists[c] == []
    ensures heads[c] != NULL ==> IsObject(heads[c]) && heads[c] in mem
  {
    assert Linked(mem, heads[c], lists[c]);
  }

  /** The list keeps its links in any memory that agrees on its nodes. */
  lemma LinkedAgree(mem: Memory, mem': Memory, head: Word, nodes: seq<Word>)
    requires Linked(mem, head, nodes)
    requires forall i :: 0 <= i < |nodes| ==> nodes[i] in mem' && mem'[nodes[i]] == mem[nodes[i]]
    ensures Linked(mem', head, nodes)
  {
  }

  /** The first node of a batch, or NULL. */
  function BatchHead(batch: seq<Word>): Word
  {
    if batch == [] then NULL else batch[0]
  }

  /** Objects the collector supplies: real and distinct. */
  predicate FreshBatch(batch: seq<Word>)
  {
    (forall i :: 0 <= i < |batch| ==> IsObject(batch[i])) && NoDuplicates(batch)
  }

  /** The list the collector builds from objects it has just reclaimed or
      carved from a new block: each object's first word links to the next
      one and the last holds NULL.  No other word changes. */
  function LinkObjects(mem: Memory, batch: seq<Word>): (r: Memory)
    requires FreshBatch(batch)
    ensures Linked(r, BatchHead(batch), batch)
    ensures mem.Keys <= r.Keys
    ensures forall a :: a in mem && a !in batch ==> r[a] == mem[a]
    decreases |batch|
  {
    if batch == [] then
      mem
    else
      var rest := LinkObjects(mem, batch[1..]);
      rest[batch[0] := BatchHead(batch[1..])]
  }

  /** Installing a batch of objects that are on no list as the list of an
      empty slot keeps the pool. */
  lemma PoolInstall(mem: Memory, heads: seq<Word>, lists: seq<seq<Word>>, c: nat, batch: seq<Word>)
    requires Pool(mem, heads, lists) && c < |lists| && lists[c] == []
    requires FreshBatch(batch)
    requires forall i :: 0 <= i < |batch| ==> !OnSomeList(lists, batch[i])
    ensures Pool(LinkObjects(mem, batch), heads[c := BatchHead(batch)], lists[c := batch])
  {
    var mem' := LinkObjects(mem, batch);
    var lists' := lists[c := batch];
    forall d | 0 <= d < |lists'| && d != c
      ensures Linked(mem', heads[d], lists'[d])
    {
      assert Linked(mem, heads[d], lists[d]);
      forall i | 0 <= i < |lists[d]|
        ensures lists[d][i] in mem' && mem'[lists[d][i]] == mem[lists[d][i]]
      {
        forall j | 0 <= j < |batch|
          ensures batch[j] != lists[d][i]
        {
          assert !OnSomeList(lists, batch[j]);
        }
      }
      LinkedAgree(mem, mem', heads[d], lists[d]);
    }
    assert Disjoint(lists') by {
      forall d, e, i, j |
        0 <= d < |lists'| && 0 <= e < |lists'| && d != e &&
        0 <= i < |lists'[d]| && 0 <= j < |lists'[e]|
        ensures lists'[d][i] != lists'[e][j]
      {
        if d == c {
          assert !OnSomeList(lists, batch[i]);
        } else if e == c {
          assert !OnSomeList(lists, batch[j]);
        }
      }
    }
  }

  /** The global free-list store of the finalized kind, the first word of
      every tracked object, and GC_bytes_allocd. */
  datatype Heap = Heap(heads: seq<Word>, mem: Memory, bytesAllocd: nat)

  /** Each list head is NULL or a readable object. */
  predicate HeadsReadable(h: Heap)
  {
    forall c :: 0 <= c < |h.heads| && h.heads[c] != NULL ==> IsObject(h.heads[c]) && h.heads[c] in h.mem
  }

  /** The global heads of a pool that also holds further lists (`extra`,
      a thread's) are readable. */
  lemma PoolReadable(h: Heap, extra: seq<Word>, lists: seq<seq<Word>>)
    requires Pool(h.mem, h.heads + extra, lists)
    ensures HeadsReadable(h)
  {
    forall c | 0 <= c < |h.heads| && h.heads[c] != NULL
      ensures IsObject(h.heads[c]) && h.heads[c] in h.mem
    {
      PoolHeadReadable(h.mem, h.heads + extra, lists, c);
    }
  }

  /** The locked part of the small-object path: take the head of list `lg`,
      advance the list to the head's link, clear the link and count the
      granules as allocated. */
  function PopFree(h: Heap, lg: nat): (r: (Heap, Word))
    requires lg < |h.heads| && h.heads[lg] != NULL && HeadsReadable(h)
    ensures |r.0.heads| == |h.heads|
    ensures forall c :: 0 <= c < |h.heads| && c != lg ==> r.0.heads[c] == h.heads[c]
    ensures IsObject(r.1) && r.1 in r.0.mem && Decode(r.0.mem[r.1]) == Fragment(NULL)
    ensures r.0.mem.Keys == h.mem.Keys
    ensures forall a :: a in h.mem && a != r.1 ==> r.0.mem[a] == h.mem[a]
    ensures r.0.bytesAllocd - h.bytesAllocd == GranulesToBytes(lg)
  {
    var op := h.heads[lg];
    var heads := h.heads[lg := h.mem[op]];
    var mem := h.mem[op := NULL];
    (Heap(heads, mem, h.bytesAllocd + GranulesToBytes(lg)), op)
  }
}

=== FILE: header.dfy ===
/** The first word of every object of the finalized kind.

    A live object's header holds the address of its finalizer closure with
    bit 0 set.  A free-list fragment's header holds the (word-aligned, hence
    even) address of the next fragment, or NULL.  Bit 0 is the only thing
    that tells the two apart. */
module Header {
  import opened Machine
  import Bits

  /** `w & 1`. */
  function LowBit(w: Word): (b: nat)
    ensures b == 0 || b == 1
  {
    w % 2
  }

  /** `w & ~(GC_word)1`: bit 0 cleared, every other bit kept. */
  function ClearLowBit(w: Word): (r: Word)
    ensures LowBit(r) == 0
    ensures r <= w && w - r == LowBit(w)
  {
    w - w % 2
  }

  /** `w | 1`: bit 0 set, every other bit kept. */
  function SetLowBit(w: Word): (r: Word)
    ensures LowBit(r) == 1
    ensures ClearLowBit(r) == ClearLowBit(w)
  {
    w - w % 2 + 1
  }

  /** The header the allocator writes for closure address `fclos`:
      `(GC_word)fclos | 1`. */
  function Tag(fclos: Word): (h: Word)
    ensures IsLive(h)
    ensures LowBit(fclos) == 0 ==> ClearLowBit(h) == fclos
    ensures Decode(h) == Live(ClearLowBit(fclos))
  {
    SetLowBit(fclos)
  }

  /** The test `(fc_word & 1) != 0` of the disclaim procedure. */
  predicate IsLive(w: Word)
  {
    LowBit(w) != 0
  }

  /** The two meanings a header word can have. */
  datatype View = Fragment(link: Word) | Live(closure: Word)

  /** Both a link and a closure address are even. */
  predicate WellFormed(v: View)
  {
    match v
    case Fragment(link) => LowBit(link) == 0
    case Live(closure) => LowBit(closure) == 0
  }

  /** How the disclaim procedure reads a header word. */
  function Decode(w: Word): (v: View)
    ensures WellFormed(v)
    ensures v.Live? <==> IsLive(w)
    ensures Encode(v) == w
  {
    if IsLive(w) then Live(ClearLowBit(w)) else Fragment(w)
  }

  /** The header word that carries `v`. */
  function Encode(v: View): (w: Word)
    requires WellFormed(v)
    ensures IsLive(w) <==> v.Live?
  {
    match v
    case Fragment(link) => link
    case Live(closure) => SetLowBit(closure)
  }

  /** Every well-formed view survives encoding: no fragment is read as live
      and no closure address is altered by tagging. */
  lemma DecodeEncode(v: View)
    requires WellFormed(v)
    ensures Decode(Encode(v)) == v
  {
  }

  /** A fragment's link is word aligned (NULL included), so its header is
      never read as live. */
  lemma FragmentLinkIsInert(link: Word)
    requires Aligned(link)
    ensures !IsLive(link)
    ensures Decode(link) == Fragment(link)
  {
  }

  /** Tagging an aligned closure address and then masking bit 0 gives the
      address back. */
  lemma TagRoundTrip(fclos: Word)
    requires Aligned(fclos)
    ensures IsLive(Tag(fclos))
    ensures ClearLowBit(Tag(fclos)) == fclos
    ensures Decode(Tag(fclos)) == Live(fclos)
  {
  }

  /** LowBit is the C code's `w & 1` on the 64-bit word. */
  lemma LowBitIsAndOne(w: Word)
    ensures ((w as bv64) & 1) as int == LowBit(w)
  {
    Bits.AndOneIsLowBit(w as bv64);
  }
}

=== FILE: kinds.dfy ===
/** The collector's table of object kinds, as far as the finalized kind
    reads and writes it. */
module Kinds {
  import opened Machine

  /** ok_disclaim_proc: none, GC_finalized_disclaim, or a client's own
      procedure at some address. */
  datatype DisclaimProc = NoProc | FinalizedDisclaimProc | ClientProc(address: Word)

  /** The simplest mark descriptor: scan the whole object as possible pointers. */
  const GC_DS_LENGTH: nat := 0

  /** The fields of struct obj_kind that kind creation and registration set. */
  datatype ObjKind = ObjKind(
    descriptor: nat,
    relocateDescr: bool,
    initOnAlloc: bool,
    disclaim: DisclaimProc,
    markUnconditionally: int)

  /** A slot of the kind table no kind occupies yet. */
  const UNUSED_KIND: ObjKind := ObjKind(0, false, false, NoProc, 0)

  /** GC_obj_kinds (MAXOBJKINDS entries), GC_n_kinds, and the set of pointer
      displacements the marker accepts. */
  datatype Registry = Registry(kinds: seq<ObjKind>, nKinds: nat, displacements: set<nat>)

  predicate Valid(reg: Registry)
  {
    |reg.kinds| == MAXOBJKINDS && reg.nKinds <= MAXOBJKINDS
  }

  /** GC_register_disclaim_proc: installs a disclaim procedure and the
      mark-unconditionally flag on one kind and changes nothing else.  The
      kind must be below MAXOBJKINDS (an assertion in the source). */
  function RegisterDisclaimProc(reg: Registry, kind: int, proc: DisclaimProc, markUnconditionally: int): (r: Registry)
    requires Valid(reg)
    requires 0 <= kind < MAXOBJKINDS
    ensures Valid(r)
    ensures r.kinds[kind].disclaim == proc
    ensures r.kinds[kind].markUnconditionally == markUnconditionally
    ensures r.kinds[kind].descriptor == reg.kinds[kind].descriptor
    ensures r.kinds[kind].relocateDescr == reg.kinds[kind].relocateDescr
    ensures r.kinds[kind].initOnAlloc == reg.kinds[kind].initOnAlloc
    ensures forall k :: 0 <= k < MAXOBJKINDS && k != kind ==> r.kinds[k] == reg.kinds[k]
    ensures r.nKinds == reg.nKinds && r.displacements == reg.displacements
  {
    var k := reg.kinds[kind];
    reg.(kinds := reg.kinds[kind := k.(disclaim := proc, markUnconditionally := markUnconditionally)])
  }

  /** GC_new_kind_inner, which is not part of this model, reduced to its
      observable effect: the next unused index becomes a kind with the given
      descriptor and flags and without a disclaim procedure.  The collector
      aborts when the table is full.  The free-list store passed as the first
      argument is not recorded here: the finalized kind's store is the list
      heads of `Allocator.State`, which initialization replaces with a fresh
      empty store. */
  function NewKind(reg: Registry, descriptor: nat, adjust: bool, clear: bool): (r: (Registry, nat))
    requires Valid(reg) && reg.nKinds < MAXOBJKINDS
    ensures Valid(r.0)
    ensures r.1 == reg.nKinds && r.0.nKinds == reg.nKinds + 1
    ensures r.0.kinds[r.1] == ObjKind(descriptor, adjust, clear, NoProc, 0)
    ensures forall k :: 0 <= k < MAXOBJKINDS && k != r.1 ==> r.0.kinds[k] == reg.kinds[k]
    ensures r.0.displacements == reg.displacements
  {
    var kind := reg.nKinds;
    (reg.(kinds := reg.kinds[kind := ObjKind(descriptor, adjust, clear, NoProc, 0)], nKinds := kind + 1), kind)
  }

  /** GC_register_displacement_inner: pointers this many bytes into an
      object also keep it alive. */
  function RegisterDisplacement(reg: Registry, offset: nat): (r: Registry)
    ensures r.displacements == reg.displacements + {offset}
    ensures r.kinds == reg.kinds && r.nKinds == reg.nKinds
  {
    reg.(displacements := reg.displacements + {offset})
  }
}

=== FILE: machine.dfy ===
/** Machine words, sizes and the collector configuration that the
    finalized-allocation code of fnlz_mlc.c relies on.

    The constants are the default values for a 64-bit target; the headers
    that define them (gc_priv.h, thread_local_alloc.h) are not part of this
    model. */
module Machine {

  /** sizeof(GC_word) and sizeof(size_t). */
  const WORD_BYTES: nat := 8
  const WORD_MODULUS: nat := 0x1_0000_0000_0000_0000
  const SIZE_MAX: nat := WORD_MODULUS - 1

  /** An unsigned machine word: a header word, an address or a size_t. */
  type Word = w: int | 0 <= w < WORD_MODULUS

  const NULL: Word := 0

  /** The first word of each object the model tracks, by object address. */
  type Memory = map<Word, Word>

  const GRANULE_BYTES: nat := 16
  const HBLKSIZE: nat := 4096
  const MAXOBJBYTES: nat := HBLKSIZE / 2
  const MAXOBJGRANULES: nat := MAXOBJBYTES / GRANULE_BYTES
  /** One extra byte per object when all interior pointers are recognised (the default). */
  const EXTRA_BYTES: nat := 1
  const MAXOBJKINDS: nat := 16

  /** Number of thread-local free-list slots per kind. */
  const TINY_FREELISTS: nat := 25
  /** Direct allocations a thread makes for a size class before it starts batching. */
  const DIRECT_GRANULES: nat := HBLKSIZE / GRANULE_BYTES
  /** Largest thread-local slot value that is a counter or marker rather than a pointer. */
  const SENTINEL_MAX: nat := DIRECT_GRANULES + TINY_FREELISTS + 1

  /** Entries of a global free-list store: one per granule count 0..MAXOBJGRANULES. */
  const FREELIST_ENTRIES: nat := MAXOBJGRANULES + 1

  /** Heap objects lie above the lowest page and end below the highest one. */
  const HEAP_LIMIT: nat := WORD_MODULUS - HBLKSIZE

  /** GRANULES_TO_BYTES. */
  function GranulesToBytes(g: nat): nat
  {
    g * GRANULE_BYTES
  }

  /** SMALL_OBJ: requests of this many bytes are served from size-class free lists. */
  predicate SmallObj(bytes: nat)
  {
    bytes <= MAXOBJBYTES - EXTRA_BYTES
  }

  predicate Aligned(a: Word)
  {
    a % WORD_BYTES == 0
  }

  /** The address of a real heap object: word aligned and never in the
      sentinel range nor in the last page of the address space. */
  predicate IsObject(a: Word)
  {
    Aligned(a) && SENTINEL_MAX < a < HEAP_LIMIT
  }

  /** An object of `bytes` bytes at `base` fits in the heap. */
  predicate InHeap(base: Word, bytes: nat)
  {
    IsObject(base) && base + bytes <= HEAP_LIMIT
  }

  /** `(GC_word *)base + 1`: the address one word past `base`, with the
      machine's wrap-around. */
  function Payload(base: Word): (p: Word)
    ensures IsObject(base) ==> p == base + WORD_BYTES
  {
    (base + WORD_BYTES) % WORD_MODULUS
  }
}

=== FILE: refills.dfy ===
/** What the collector's own allocation routines, which live outside
    fnlz_mlc.c, do to the finalized kind's free lists when the code here
    calls them.

    GC_finalized_objfreelist is the free-list store of the finalized kind,
    so GC_generic_malloc and GC_generic_malloc_many for that kind work on
    the very lists the fast paths pop.  The objects the collector brings in
    from outside those lists (reclaimed ones, or a new block carved into
    objects) are parameters of the model. */
module Refills {
  import opened Machine
  import opened FreeLists

  /** GC_allocobj for an empty size class: the objects it supplies are
      linked into list `lg`. */
  function Install(h: Heap, lg: nat, objs: seq<Word>): (r: Heap)
    requires lg < |h.heads| && FreshBatch(objs)
    ensures r.heads == h.heads[lg := BatchHead(objs)] && r.bytesAllocd == h.bytesAllocd
    ensures Linked(r.mem, r.heads[lg], objs)
    ensures h.mem.Keys <= r.mem.Keys
    ensures HeadsReadable(h) ==> HeadsReadable(r)
  {
    h.(heads := h.heads[lg := BatchHead(objs)], mem := LinkObjects(h.mem, objs))
  }

  /** GC_generic_malloc_inner for a small size class: pop list `lg`, first
      filling it from GC_allocobj when it is empty.  `refill` is what
      GC_allocobj supplies; an empty refill is its failure, and the result
      is then NULL with nothing changed. */
  function MallocInner(h: Heap, lg: nat, refill: seq<Word>): (r: (Heap, Word))
    requires lg < |h.heads| && HeadsReadable(h) && FreshBatch(refill)
    ensures r.1 == NULL <==> h.heads[lg] == NULL && refill == []
    ensures r.1 == NULL ==> r.0 == h
    ensures r.1 != NULL ==>
      && r.1 == (if h.heads[lg] != NULL then h.heads[lg] else refill[0])
      && IsObject(r.1) && r.1 in r.0.mem && r.0.mem[r.1] == NULL
      && r.0.bytesAllocd == h.bytesAllocd + GranulesToBytes(lg)
    ensures |r.0.heads| == |h.heads|
    ensures forall c :: 0 <= c < |h.heads| && c != lg ==> r.0.heads[c] == h.heads[c]
    ensures h.mem.Keys <= r.0.mem.Keys
  {
    if h.heads[lg] != NULL then
      PopFree(h, lg)
    else if refill == [] then
      (h, NULL)
    else
      PopFree(Install(h, lg, refill), lg)
  }

  /** Where GC_generic_malloc_many finds the objects of a thread's batch:
      objects reclaimed from a swept block or carved from a new one; up to
      `n` nodes from the front of the kind's global list of the same size
      class; or, as a last resort, one object from GC_generic_malloc_inner,
      which may first refill the global list. */
  datatype BatchSource =
    | Fresh(objs: seq<Word>)
    | GlobalPrefix(n: nat)
    | SingleObject(refill: seq<Word>)

  /** Fresh objects are distinct real objects, and a prefix takes at least
      one node. */
  predicate ValidSource(src: BatchSource)
  {
    match src
    case Fresh(objs) => FreshBatch(objs)
    case GlobalPrefix(n) => n > 0
    case SingleObject(refill) => FreshBatch(refill)
  }

  /** The objects a source brings in from outside the kind's lists. */
  function NewObjects(src: BatchSource): seq<Word>
  {
    match src
    case Fresh(objs) => objs
    case GlobalPrefix(_) => []
    case SingleObject(refill) => refill
  }

  /** GC_generic_malloc_many for size class `lg` of the finalized kind: the
      heap after the call and the batch, which the caller's slot receives.
      Every object handed over is counted in GC_bytes_allocd.  A prefix is
      cut off the global list by clearing the link of its last node and
      moving the global head past it. */
  function MallocMany(h: Heap, lg: nat, src: BatchSource): (r: (Heap, seq<Word>))
    requires lg < |h.heads| && HeadsReadable(h) && ValidSource(src)
    ensures r.1 == [] ==> r.0 == h
    ensures |r.0.heads| == |h.heads|
    ensures forall c :: 0 <= c < |h.heads| && c != lg ==> r.0.heads[c] == h.heads[c]
    ensures r.0.bytesAllocd == h.bytesAllocd + |r.1| * GranulesToBytes(lg)
    ensures forall i :: 0 <= i < |r.1| ==> IsObject(r.1[i]) && r.1[i] in r.0.mem
    ensures NoDuplicates(r.1) ==> Linked(r.0.mem, BatchHead(r.1), r.1)
    ensures src.Fresh? ==> r.1 == src.objs && r.0.heads == h.heads
    ensures src.GlobalPrefix? ==> |r.1| <= src.n
    ensures src.GlobalPrefix? && src.n > 0 && h.heads[lg] != NULL ==> r.1 != [] && r.1[0] == h.heads[lg]
    ensures src.SingleObject? ==> |r.1| <= 1
  {
    match src
    case Fresh(objs) =>
      (h.(mem := LinkObjects(h.mem, objs), bytesAllocd := h.bytesAllocd + |objs| * GranulesToBytes(lg)), objs)
    case GlobalPrefix(n) =>
      var prefix := Walk(h.mem, h.heads[lg], n);
      if prefix == [] then
        (h, [])
      else
        var last := prefix[|prefix| - 1];
        (Heap(h.heads[lg := h.mem[last]], h.mem[last := NULL], h.bytesAllocd + |prefix| * GranulesToBytes(lg)), prefix)
    case SingleObject(refill) =>
      var (h', op) := MallocInner(h, lg, refill);
      if op == NULL then (h, []) else (h', [op])
  }

  /** GC_generic_malloc_inner keeps the pool of the global lists and any
      further lists (`extra`): a non-empty list `lg` loses its first node,
      an empty one becomes the refill without its first object, and the
      object returned is on no list. */
  lemma MallocInnerKeepsPool(h: Heap, extra: seq<Word>, lists: seq<seq<Word>>, lg: nat, refill: seq<Word>)
    returns (lists': seq<seq<Word>>)
    requires lg < |h.heads| && FreshBatch(refill)
    requires Pool(h.mem, h.heads + extra, lists)
    requires forall i :: 0 <= i < |refill| ==> !OnSomeList(lists, refill[i])
    ensures HeadsReadable(h)
    ensures var r := MallocInner(h, lg, refill);
      && Pool(r.0.mem, r.0.heads + extra, lists')
      && |lists'| == |lists|
      && (forall e :: 0 <= e < |lists| && e != lg ==> lists'[e] == lists[e])
      && (r.1 != NULL ==> !OnSomeList(lists', r.1))
      && (h.heads[lg] != NULL ==> lists[lg] != [] && r.1 == lists[lg][0] && lists'[lg] == lists[lg][1..])
      && (h.heads[lg] == NULL && refill != [] ==> lists'[lg] == refill[1..])
  {
    PoolReadable(h, extra, lists);
    var heads := h.heads + extra;
    assert heads[lg] == h.heads[lg];
    PoolHeadReadable(h.mem, heads, lists, lg);
    if h.heads[lg] != NULL {
      PoolPop(h.mem, heads, lists, lg, NULL);
      var (h', op) := PopFree(h, lg);
      assert h'.heads + extra == heads[lg := h.mem[op]];
      lists' := lists[lg := lists[lg][1..]];
    } else if refill == [] {
      lists' := lists;
    } else {
      PoolInstall(h.mem, heads, lists, lg, refill);
      var h1 := Install(h, lg, refill);
      var lists1 := lists[lg := refill];
      assert h1.heads + extra == heads[lg := BatchHead(refill)];
      PoolPop(h1.mem, h1.heads + extra, lists1, lg, NULL);
      var (h', op) := PopFree(h1, lg);
      assert h'.heads + extra == (h1.heads + extra)[lg := h1.mem[op]];
      lists' := lists1[lg := refill[1..]];
    }
  }

  /** Fresh objects become the list of the empty slot `c`; no list
      changes. */
  lemma FreshBatchKeepsPool(h: Heap, extra: seq<Word>, lists: seq<seq<Word>>, lg: nat, c: nat, objs: seq<Word>)
    requires lg < |h.heads| && c < |extra| && extra[c] == NULL && FreshBatch(objs)
    requires Pool(h.mem, h.heads + extra, lists)
    requires forall i :: 0 <= i < |objs| ==> !OnSomeList(lists, objs[i])
    ensures HeadsReadable(h)
    ensures var r := MallocMany(h, lg, Fresh(objs));
      Pool(r.0.mem, r.0.heads + extra[c := BatchHead(r.1)], lists[|h.heads| + c := objs])
  {
    PoolReadable(h, extra, lists);
    var heads := h.heads + extra;
    var d := |h.heads| + c;
    assert heads[d] == NULL;
    PoolHeadReadable(h.mem, heads, lists, d);
    PoolInstall(h.mem, heads, lists, d, objs);
    var r := MallocMany(h, lg, Fresh(objs));
    assert r.0.heads + extra[c := BatchHead(objs)] == heads[d := BatchHead(objs)];
  }

  /** A prefix of the global list `lg` moves, as it is, to the empty slot
      `c`: the batch is the list's first nodes and the global list keeps the
      others. */
  lemma PrefixBatchKeepsPool(h: Heap, extra: seq<Word>, lists: seq<seq<Word>>, lg: nat, c: nat, n: nat)
    requires lg < |h.heads| && c < |extra| && extra[c] == NULL
    requires ValidSource(GlobalPrefix(n))
    requires Pool(h.mem, h.heads + extra, lists)
    ensures HeadsReadable(h)
    ensures var r := MallocMany(h, lg, GlobalPrefix(n));
      && |r.1| <= |lists[lg]|
      && r.1 == lists[lg][..|r.1|]
      && Pool(r.0.mem, r.0.heads + extra[c := BatchHead(r.1)],
              lists[lg := lists[lg][|r.1|..]][|h.heads| + c := r.1])
  {
    PoolReadable(h, extra, lists);
    var heads := h.heads + extra;
    var d := |h.heads| + c;
    assert heads[d] == NULL;
    PoolHeadReadable(h.mem, heads, lists, d);
    assert heads[lg] == h.heads[lg];
    assert Linked(h.mem, heads[lg], lists[lg]);
    WalkOfLinked(h.mem, h.heads[lg], lists[lg], n);
    var r := MallocMany(h, lg, GlobalPrefix(n));
    var k := |r.1|;
    if k == 0 {
      assert extra[c := NULL] == extra;
      assert lists[lg := lists[lg][0..]][d := []] == lists;
    } else {
      PoolSplit(h.mem, heads, lists, lg, d, k);
      var last := lists[lg][k - 1];
      assert r.0.heads + extra[c := BatchHead(r.1)] == heads[lg := h.mem[last]][d := lists[lg][0]];
    }
  }

  /** The single object of GC_generic_malloc_inner becomes the list of the
      empty slot `c`, and the global list `lg` changes as that call changes
      it. */
  lemma SingleBatchKeepsPool(h: Heap, extra: seq<Word>, lists: seq<seq<Word>>, lg: nat, c: nat, refill: seq<Word>)
    returns (lists': seq<seq<Word>>)
    requires lg < |h.heads| && c < |extra| && extra[c] == NULL && FreshBatch(refill)
    requires Pool(h.mem, h.heads + extra, lists)
    requires forall i :: 0 <= i < |refill| ==> !OnSomeList(lists, refill[i])
    ensures HeadsReadable(h)
    ensures var r := MallocMany(h, lg, SingleObject(refill));
      && Pool(r.0.mem, r.0.heads + extra[c := BatchHead(r.1)], lists')
      && |lists'| == |lists|
      && lists'[|h.heads| + c] == r.1
      && (forall e :: 0 <= e < |lists| && e != lg && e != |h.heads| + c ==> lists'[e] == lists[e])
  {
    var d := |h.heads| + c;
    var lists1 := MallocInnerKeepsPool(h, extra, lists, lg, refill);
    assert (h.heads + extra)[d] == NULL;
    PoolHeadReadable(h.mem, h.heads + extra, lists, d);
    var (h1, op) := MallocInner(h, lg, refill);
    if op == NULL {
      assert extra[c := NULL] == extra;
      lists' := lists;
    } else {
      assert lists1[d] == [];
      PoolInstall(h1.mem, h1.heads + extra, lists1, d, [op]);
      assert LinkObjects(h1.mem, [op]) == h1.mem;
      assert h1.heads + extra[c := op] == (h1.heads + extra)[d := op];
      lists' := lists1[d := [op]];
    }
  }

  /** GC_generic_malloc_many keeps the pool when its batch becomes the list
      of an empty slot `c` among the further lists (`extra`).  A batch
      taken from the global list is exactly that list's front, and the
      global list keeps the rest; the batch is one list of the pool; no
      other list changes. */
  lemma MallocManyKeepsPool(h: Heap, extra: seq<Word>, lists: seq<seq<Word>>, lg: nat, c: nat, src: BatchSource)
    returns (lists': seq<seq<Word>>)
    requires lg < |h.heads| && c < |extra| && extra[c] == NULL && ValidSource(src)
    requires Pool(h.mem, h.heads + extra, lists)
    requires forall i :: 0 <= i < |NewObjects(src)| ==> !OnSomeList(lists, NewObjects(src)[i])
    ensures HeadsReadable(h)
    ensures var r := MallocMany(h, lg, src);
      && Pool(r.0.mem, r.0.heads + extra[c := BatchHead(r.1)], lists')
      && |lists'| == |lists|
      && lists'[|h.heads| + c] == r.1
      && (src.GlobalPrefix? ==>
            |r.1| <= |lists[lg]| && r.1 == lists[lg][..|r.1|] && lists'[lg] == lists[lg][|r.1|..])
      && (forall e :: 0 <= e < |lists| && e != lg && e != |h.heads| + c ==> lists'[e] == lists[e])
  {
    var d := |h.heads| + c;
    match src
    case Fresh(objs) =>
      assert NewObjects(src) == objs;
      FreshBatchKeepsPool(h, extra, lists, lg, c, objs);
      lists' := lists[d := objs];
    case GlobalPrefix(n) =>
      PrefixBatchKeepsPool(h, extra, lists, lg, c, n);
      var k := |MallocMany(h, lg, src).1|;
      lists' := lists[lg := lists[lg][k..]][d := MallocMany(h, lg, src).1];
    case SingleObject(refill) =>
      assert NewObjects(src) == refill;
      lists' := SingleBatchKeepsPool(h, extra, lists, lg, c, refill);
  }
}

=== FILE: threadlocal.dfy ===
/** GC_finalized_malloc with thread-local free lists.

    Each thread has one slot per small size class.  A slot holds either a
    small number or the head of a list of objects:
    - 1..DIRECT_GRANULES counts the allocations made directly through the
      global path; each one raises the count by the class's granules plus
      one;
    - NULL, or a count that has grown past DIRECT_GRANULES (but not past
      SENTINEL_MAX), asks for a batch refill;
    - anything larger is the address of the first object of the list. */
module ThreadLocal {
  import opened Machine
  import opened Header
  import opened FreeLists
  import opened Refills
  import opened Allocator
  import opened Disclaim

  /** How a slot value is read. */
  datatype SlotKind = DirectCount | NeedsRefill | ListHead

  /** The tests of the allocation loop: `my_entry <= DIRECT_GRANULES +
      GC_TINY_FREELISTS + 1` and then the unsigned `my_entry - 1 <
      DIRECT_GRANULES`, under which NULL wraps around to the largest word. */
  function ClassifySlot(entry: Word): (k: SlotKind)
    ensures k == DirectCount <==> 1 <= entry <= DIRECT_GRANULES
    ensures k == NeedsRefill <==> entry == NULL || DIRECT_GRANULES < entry <= SENTINEL_MAX
    ensures k == ListHead <==> SENTINEL_MAX < entry
  {
    if entry <= SENTINEL_MAX then
      if (entry + WORD_MODULUS - 1) % WORD_MODULUS < DIRECT_GRANULES then DirectCount else NeedsRefill
    else
      ListHead
  }

  /** `*my_fl = (ptr_t)my_entry + lg + 1`: the count grows, and stays a
      count; it never reaches the range of real addresses. */
  function DirectStep(entry: Word, lg: nat): (r: Word)
    requires ClassifySlot(entry) == DirectCount && lg < TINY_FREELISTS
    ensures entry < r <= DIRECT_GRANULES + TINY_FREELISTS
    ensures ClassifySlot(r) != ListHead
  {
    entry + lg + 1
  }

  /** How many allocations in a row a slot holding `entry` sends directly to
      the global path before it asks for a batch: never more than
      DIRECT_GRANULES, and none once the count has run out. */
  function DirectAllocations(entry: Word, lg: nat): (n: nat)
    requires lg < TINY_FREELISTS && ClassifySlot(entry) != ListHead
    ensures ClassifySlot(entry) == NeedsRefill ==> n == 0
    ensures ClassifySlot(entry) == DirectCount ==> 1 <= n <= DIRECT_GRANULES + 1 - entry
    decreases DIRECT_GRANULES + 1 - entry
  {
    if ClassifySlot(entry) == DirectCount then 1 + DirectAllocations(DirectStep(entry, lg), lg) else 0
  }

  /** Every slot that holds a list head points to a readable object. */
  predicate SlotsReadable(mem: Memory, slots: seq<Word>)
  {
    forall g :: 0 <= g < |slots| && ClassifySlot(slots[g]) == ListHead ==> IsObject(slots[g]) && slots[g] in mem
  }

  /** The sum `lb + GRANULE_BYTES - 1 + EXTRA_BYTES` inside
      ROUNDED_UP_GRANULES fits in a size_t. */
  predicate RoundingFits(lb: Word)
  {
    lb + GRANULE_BYTES - 1 + EXTRA_BYTES < WORD_MODULUS
  }

  /** ROUNDED_UP_GRANULES(lb), that is BYTES_TO_GRANULES(lb + GRANULE_BYTES
      - 1 + EXTRA_BYTES), as fnlz_mlc.c:130 computes it on a size_t: the granules
      that hold the request and its extra byte, except that the sum wraps
      for the largest requests, which then land in class 0. */
  function RoundedUpGranulesAsWritten(lb: Word): (lg: nat)
    ensures RoundingFits(lb) ==> lb + EXTRA_BYTES <= GranulesToBytes(lg) < lb + EXTRA_BYTES + GRANULE_BYTES
    ensures !RoundingFits(lb) ==> lg == 0
  {
    ((lb + GRANULE_BYTES - 1 + EXTRA_BYTES) % WORD_MODULUS) / GRANULE_BYTES
  }

  /** ROUNDED_UP_GRANULES with the sum saturated at SIZE_MAX, as
      SIZET_SAT_ADD does: a class that holds the request, or one far too
      large for a thread-local slot. */
  function RoundedUpGranules(lb: Word): (lg: nat)
    ensures RoundingFits(lb) ==> lb + EXTRA_BYTES <= GranulesToBytes(lg) < lb + EXTRA_BYTES + GRANULE_BYTES
    ensures lg < TINY_FREELISTS ==> lb + EXTRA_BYTES <= GranulesToBytes(lg)
  {
    (if RoundingFits(lb) then lb + GRANULE_BYTES - 1 + EXTRA_BYTES else SIZE_MAX) / GRANULE_BYTES
  }

  /** What the caller gets: the reply of the allocator, or whatever the
      out-of-memory handler returned, unchanged. */
  datatype Returned = Client(reply: Reply) | OomHandler(p: Word)

  function ReturnedPointer(r: Returned): Word
  {
    match r
    case Client(reply) => ClientPointer(reply)
    case OomHandler(p) => p
  }

  /** The global state, the thread's slots, and the result of one call. */
  datatype TLResult = TLResult(st: State, slots: seq<Word>, returned: Returned)

  /** Takes the object at the head of slot `lg`: the caller gets it with
      the class's bytes, the slot advances to the object's link, and the
      object's first word, which held that link, becomes the tagged header.
      Nothing else changes. */
  function PopSlot(st: State, slots: seq<Word>, lg: nat, fclos: Word): (r: TLResult)
    requires lg < |slots| && ClassifySlot(slots[lg]) == ListHead && slots[lg] in st.heap.mem
    ensures r.returned == Client(Object(slots[lg], GranulesToBytes(lg)))
    ensures r.slots == slots[lg := st.heap.mem[slots[lg]]]
    ensures r.st.(heap := st.heap) == st
    ensures r.st.heap.heads == st.heap.heads && r.st.heap.bytesAllocd == st.heap.bytesAllocd
    ensures r.st.heap.mem.Keys == st.heap.mem.Keys && r.st.heap.mem[slots[lg]] == Tag(fclos)
    ensures forall a :: a in st.heap.mem && a != slots[lg] ==> r.st.heap.mem[a] == st.heap.mem[a]
  {
    var op := slots[lg];
    var next := st.heap.mem[op];
    var unlinked := st.heap.(mem := st.heap.mem[op := NULL]);
    TLResult(st.(heap := WriteHeader(unlinked, op, fclos)), slots[lg := next], Client(Object(op, GranulesToBytes(lg))))
  }

  /** The body of GC_finalized_malloc once `lb`, the request with the header
      word, and its slot `lg`, ROUNDED_UP_GRANULES(lb), are known.  `refill`
      and `generic` are what the global path's calls into the collector
      supply, `src` is where GC_generic_malloc_many finds the batch, and
      `oom` is the out-of-memory handler. */
  function MallocRequest(st: State, slots: seq<Word>, col: Collector, lb: Word, lg: nat, fclos: Word,
                         refill: seq<Word>, generic: Reply, src: BatchSource, oom: nat -> Word): (r: TLResult)
    requires ValidState(st) && st.doneInit
    requires ValidCollector(col)
    requires FreshBatch(refill) && ValidReply(generic, lb)
    requires |slots| == TINY_FREELISTS && SlotsReadable(st.heap.mem, slots)
    requires ValidSource(src)
    ensures |r.slots| == |slots|
    ensures forall g :: 0 <= g < |slots| && g != lg ==> r.slots[g] == slots[g]
    ensures r.st.(heap := st.heap) == st
    // a large request, or a direct allocation, is the global path's
    ensures lg >= TINY_FREELISTS ==>
      var core := CoreMallocRequest(st, col, lb, fclos, refill, generic);
      r == TLResult(core.0, slots, Client(core.1))
    ensures lg < TINY_FREELISTS && ClassifySlot(slots[lg]) == DirectCount ==>
      var core := CoreMallocRequest(st, col, lb, fclos, refill, generic);
      && r.st == core.0 && r.returned == Client(core.1)
      && r.slots[lg] == slots[lg] + lg + 1 <= DIRECT_GRANULES + TINY_FREELISTS
    // a refill: an empty batch goes to the out-of-memory handler with the
    // request, header word included; otherwise the batch's first object is
    // returned and the slot keeps the rest of the batch
    ensures lg < TINY_FREELISTS && ClassifySlot(slots[lg]) == NeedsRefill ==>
      var many := MallocMany(st.heap, lg, src);
      && (many.1 == [] ==> r == TLResult(st, slots[lg := NULL], OomHandler(oom(lb))))
      && (many.1 != [] ==>
            && r.returned == Client(Object(many.1[0], GranulesToBytes(lg)))
            && r.st.heap.heads == many.0.heads && r.st.heap.bytesAllocd == many.0.bytesAllocd
            && (NoDuplicates(many.1) ==> r.slots[lg] == BatchHead(many.1[1..])))
    // a list head is popped without touching the global lists
    ensures lg < TINY_FREELISTS && ClassifySlot(slots[lg]) == ListHead ==>
      && r.returned == Client(Object(slots[lg], GranulesToBytes(lg)))
      && r.slots[lg] == st.heap.mem[slots[lg]]
      && r.st.heap.heads == st.heap.heads && r.st.heap.bytesAllocd == st.heap.bytesAllocd
    ensures r.returned.Client? && r.returned.reply.Object? ==>
      var obj := r.returned.reply;
      && IsObject(obj.base)
      && obj.base in r.st.heap.mem && r.st.heap.mem[obj.base] == Tag(fclos)
      && (lg < TINY_FREELISTS ==> lb < GranulesToBytes(lg) ==> lb <= obj.bytes)
      && ReturnedPointer(r.returned) == obj.base + WORD_BYTES
  {
    if lg >= TINY_FREELISTS then
      var core := CoreMallocRequest(st, col, lb, fclos, refill, generic);
      TLResult(core.0, slots, Client(core.1))
    else
      var entry := slots[lg];
      match ClassifySlot(entry)
      case DirectCount =>
        var core := CoreMallocRequest(st, col, lb, fclos, refill, generic);
        TLResult(core.0, slots[lg := DirectStep(entry, lg)], Client(core.1))
      case NeedsRefill =>
        var (h, batch) := MallocMany(st.heap, lg, src);
        if batch == [] then
          TLResult(st, slots[lg := NULL], OomHandler(oom(lb)))
        else
          PopSlot(st.(heap := h), slots[lg := batch[0]], lg, fclos)
      case ListHead =>
        PopSlot(st, slots, lg, fclos)
  }

  /** GC_finalized_malloc with both size computations saturating: the
      request of RequestBytes and the slot of RoundedUpGranules.  Every
      object it returns holds the header word followed by the client's
      bytes, and a request larger than the heap fails with NULL, touching
      nothing. */
  function FinalizedMalloc(st: State, slots: seq<Word>, col: Collector, clientLb: Word, fclos: Word,
                           refill: seq<Word>, generic: Reply, src: BatchSource, oom: nat -> Word): (r: TLResult)
    requires ValidState(st) && st.doneInit
    requires ValidCollector(col)
    requires FreshBatch(refill) && ValidReply(generic, RequestBytes(clientLb))
    requires |slots| == TINY_FREELISTS && SlotsReadable(st.heap.mem, slots)
    requires ValidSource(src)
    ensures r.returned.Client? && r.returned.reply.Object? ==>
      && clientLb + WORD_BYTES <= r.returned.reply.bytes
      && ReturnedPointer(r.returned) == r.returned.reply.base + WORD_BYTES
    ensures clientLb + WORD_BYTES > HEAP_LIMIT ==> r == TLResult(st, slots, Client(NoMemory))
  {
    MallocRequest(st, slots, col, RequestBytes(clientLb), RoundedUpGranules(RequestBytes(clientLb)), fclos, refill, generic, src, oom)
  }

  /** GC_finalized_malloc as fnlz_mlc.c:129-130 compute the request and its slot.
      Only when neither sum wraps does the object hold the client's
      bytes. */
  function FinalizedMallocAsWritten(st: State, slots: seq<Word>, col: Collector, clientLb: Word, fclos: Word,
                                    refill: seq<Word>, generic: Reply, src: BatchSource, oom: nat -> Word): (r: TLResult)
    requires ValidState(st) && st.doneInit
    requires ValidCollector(col)
    requires FreshBatch(refill) && ValidReply(generic, RequestBytesAsWritten(clientLb))
    requires |slots| == TINY_FREELISTS && SlotsReadable(st.heap.mem, slots)
    requires ValidSource(src)
    ensures clientLb + WORD_BYTES + GRANULE_BYTES - 1 + EXTRA_BYTES < WORD_MODULUS
            && r.returned.Client? && r.returned.reply.Object? ==>
      clientLb + WORD_BYTES <= r.returned.reply.bytes
  {
    MallocRequest(st, slots, col, RequestBytesAsWritten(clientLb), RoundedUpGranulesAsWritten(RequestBytesAsWritten(clientLb)), fclos, refill, generic, src, oom)
  }

  /** The client size 2^64 - 8 wraps at fnlz_mlc.c:129 to a zero-byte request,
      which the code as written serves from the one-granule slot; with the
      saturating request the same call fails with NULL and leaves the slots
      alone. */
  lemma ThreadWrapServesTooFewBytes(st: State, slots: seq<Word>, col: Collector, fclos: Word,
                                    refill: seq<Word>, generic: Reply, src: BatchSource, oom: nat -> Word)
    requires ValidState(st) && st.doneInit
    requires ValidCollector(col)
    requires FreshBatch(refill) && ValidReply(generic, 0)
    requires |slots| == TINY_FREELISTS && SlotsReadable(st.heap.mem, slots)
    requires ValidSource(src)
    requires ClassifySlot(slots[1]) == ListHead
    ensures var clientLb: Word := SIZE_MAX - 7;
      var r := FinalizedMallocAsWritten(st, slots, col, clientLb, fclos, refill, generic, src, oom);
      && r.returned == Client(Object(slots[1], GRANULE_BYTES))
      && GRANULE_BYTES < clientLb + WORD_BYTES
      && FinalizedMalloc(st, slots, col, clientLb, fclos, refill, NoMemory, src, oom) == TLResult(st, slots, Client(NoMemory))
  {
    var clientLb: Word := SIZE_MAX - 7;
    assert RequestBytesAsWritten(clientLb) == 0;
    assert RoundedUpGranulesAsWritten(0) == 1;
  }

  /** Client sizes SIZE_MAX - 23 .. SIZE_MAX - 8 do not wrap at fnlz_mlc.c:129,
      but the rounding of fnlz_mlc.c:130 does: the request lands in slot 0.
      When that slot already holds a list, the code as written hands out one
      of its objects, which have no granules at all.  With both sums
      saturating the same call fails with NULL and leaves the slots alone. */
  lemma RoundingWrapServesClassZero(st: State, slots: seq<Word>, col: Collector, clientLb: Word, fclos: Word,
                                    refill: seq<Word>, generic: Reply, src: BatchSource, oom: nat -> Word)
    requires ValidState(st) && st.doneInit
    requires ValidCollector(col)
    requires FreshBatch(refill) && ValidReply(generic, clientLb + WORD_BYTES)
    requires |slots| == TINY_FREELISTS && SlotsReadable(st.heap.mem, slots)
    requires ValidSource(src)
    requires SIZE_MAX - 23 <= clientLb <= SIZE_MAX - 8
    requires ClassifySlot(slots[0]) == ListHead
    ensures RequestBytesAsWritten(clientLb) == clientLb + WORD_BYTES
    ensures RoundedUpGranulesAsWritten(clientLb + WORD_BYTES) == 0
    ensures FinalizedMallocAsWritten(st, slots, col, clientLb, fclos, refill, generic, src, oom).returned
            == Client(Object(slots[0], 0))
    ensures FinalizedMalloc(st, slots, col, clientLb, fclos, refill, generic, src, oom) == TLResult(st, slots, Client(NoMemory))
  {
    assert RequestBytes(clientLb) == clientLb + WORD_BYTES;
  }

  /** The same client sizes from a slot that still holds a count: the
      request goes to the global path, where it is too large for any size
      class and fails with NULL, as the corrected call does. */
  lemma RoundingWrapFromCountFails(st: State, slots: seq<Word>, col: Collector, clientLb: Word, fclos: Word,
                                   refill: seq<Word>, generic: Reply, src: BatchSource, oom: nat -> Word)
    requires ValidState(st) && st.doneInit
    requires ValidCollector(col)
    requires FreshBatch(refill) && ValidReply(generic, clientLb + WORD_BYTES)
    requires |slots| == TINY_FREELISTS && SlotsReadable(st.heap.mem, slots)
    requires ValidSource(src)
    requires SIZE_MAX - 23 <= clientLb <= SIZE_MAX - 8
    requires ClassifySlot(slots[0]) == DirectCount
    ensures FinalizedMallocAsWritten(st, slots, col, clientLb, fclos, refill, generic, src, oom).returned
            == Client(NoMemory)
  {
    assert RequestBytesAsWritten(clientLb) == clientLb + WORD_BYTES;
    assert RoundedUpGranulesAsWritten(clientLb + WORD_BYTES) == 0;
  }

  /** The list a slot holds: its head, or NULL for a count or marker. */
  function SlotHead(entry: Word): (head: Word)
    ensures head == NULL || head == entry
    ensures head != NULL <==> ClassifySlot(entry) == ListHead
  {
    if ClassifySlot(entry) == ListHead then entry else NULL
  }

  function SlotHeads(slots: seq<Word>): (heads: seq<Word>)
    ensures |heads| == |slots|
    ensures forall g :: 0 <= g < |slots| ==> heads[g] == SlotHead(slots[g])
  {
    seq(|slots|, g requires 0 <= g < |slots| => SlotHead(slots[g]))
  }

  /** Every free object belongs to exactly one list: `lists` holds the
      global free lists followed by the thread's lists, and all of them are
      disjoint lists threaded through the heap. */
  ghost predicate Owned(st: State, slots: seq<Word>, lists: seq<seq<Word>>)
  {
    Pool(st.heap.mem, st.heap.heads + SlotHeads(slots), lists)
  }

  /** Changing one slot changes one list head of the pool. */
  lemma SlotUpdateHeads(heads: seq<Word>, slots: seq<Word>, g: nat, v: Word)
    requires g < |slots|
    ensures heads + SlotHeads(slots[g := v]) == (heads + SlotHeads(slots))[|heads| + g := SlotHead(v)]
  {
    var a := heads + SlotHeads(slots[g := v]);
    var b := (heads + SlotHeads(slots))[|heads| + g := SlotHead(v)];
    assert |a| == |b|;
    forall i | 0 <= i < |a|
      ensures a[i] == b[i]
    {
      if i >= |heads| {
        assert a[i] == SlotHeads(slots[g := v])[i - |heads|];
      }
    }
  }

  /** One call of GC_finalized_malloc keeps every free object on exactly one
      list and hands out an object that is on none: no object is ever given
      to two callers.  The objects the collector brings in from outside the
      kind's lists (`refill`, `generic`, the new objects of `src`) are on no
      list; a batch taken from the global list moves to the thread. */
  lemma FinalizedMallocKeepsOwnership(st: State, slots: seq<Word>, col: Collector, lb: Word, lg: nat, fclos: Word,
                                      refill: seq<Word>, generic: Reply, src: BatchSource, oom: nat -> Word,
                                      lists: seq<seq<Word>>)
    returns (lists': seq<seq<Word>>)
    requires ValidState(st) && st.doneInit
    requires ValidCollector(col)
    requires FreshBatch(refill) && ValidReply(generic, lb)
    requires |slots| == TINY_FREELISTS && SlotsReadable(st.heap.mem, slots)
    requires ValidSource(src)
    requires Owned(st, slots, lists)
    requires forall i :: 0 <= i < |refill| ==> !OnSomeList(lists, refill[i])
    requires generic.Object? ==> !OnSomeList(lists, generic.base)
    requires forall i :: 0 <= i < |NewObjects(src)| ==> !OnSomeList(lists, NewObjects(src)[i])
    ensures var r := MallocRequest(st, slots, col, lb, lg, fclos, refill, generic, src, oom);
      && Owned(r.st, r.slots, lists')
      && (r.returned.Client? && r.returned.reply.Object? ==> !OnSomeList(lists', r.returned.reply.base))
      && ValidState(r.st) && |r.slots| == TINY_FREELISTS && SlotsReadable(r.st.heap.mem, r.slots)
  {
    if lg >= TINY_FREELISTS {
      lists' := CoreMallocKeepsOwnership(st, col, lb, fclos, refill, generic, SlotHeads(slots), lists);
    } else {
      var entry := slots[lg];
      match ClassifySlot(entry)
      case DirectCount =>
        SlotUpdateHeads(st.heap.heads, slots, lg, DirectStep(entry, lg));
        assert SlotHeads(slots[lg := DirectStep(entry, lg)]) == SlotHeads(slots);
        lists' := CoreMallocKeepsOwnership(st, col, lb, fclos, refill, generic, SlotHeads(slots), lists);
      case NeedsRefill =>
        lists' := OwnedRefillPop(st, slots, lg, fclos, src, lists);
        if MallocMany(st.heap, lg, src).1 == [] {
          SlotUpdateHeads(st.heap.heads, slots, lg, NULL);
          assert SlotHeads(slots[lg := NULL]) == SlotHeads(slots);
          lists' := lists;
        }
      case ListHead =>
        lists' := OwnedPop(st, slots, lg, fclos, lists);
    }
    var r := MallocRequest(st, slots, col, lb, lg, fclos, refill, generic, src, oom);
    OwnedIsReadable(r.st, r.slots, lists');
  }

  /** A pool of the global and the thread's lists makes every global head
      and every slot that holds a list a readable object: the state is
      ready for the next allocation. */
  lemma OwnedIsReadable(st: State, slots: seq<Word>, lists: seq<seq<Word>>)
    requires Owned(st, slots, lists)
    ensures HeadsReadable(st.heap) && SlotsReadable(st.heap.mem, slots)
  {
    var heads := st.heap.heads + SlotHeads(slots);
    PoolReadable(st.heap, SlotHeads(slots), lists);
    forall g | 0 <= g < |slots| && ClassifySlot(slots[g]) == ListHead
      ensures IsObject(slots[g]) && slots[g] in st.heap.mem
    {
      assert heads[|st.heap.heads| + g] == slots[g];
      PoolHeadReadable(st.heap.mem, heads, lists, |st.heap.heads| + g);
    }
  }

  /** Refilling an empty slot through GC_generic_malloc_many, then popping
      it, keeps the pool: the batch, fresh or cut from the global list,
      becomes the slot's list, its nodes are distinct, and the object handed
      out is on no list. */
  lemma OwnedRefillPop(st: State, slots: seq<Word>, lg: nat, fclos: Word, src: BatchSource, lists: seq<seq<Word>>)
    returns (lists': seq<seq<Word>>)
    requires lg < |slots| && lg < |st.heap.heads| && ClassifySlot(slots[lg]) == NeedsRefill
    requires ValidSource(src)
    requires Owned(st, slots, lists)
    requires forall i :: 0 <= i < |NewObjects(src)| ==> !OnSomeList(lists, NewObjects(src)[i])
    ensures HeadsReadable(st.heap)
    ensures var many := MallocMany(st.heap, lg, src);
      many.1 != [] ==>
      && many.1[0] in many.0.mem && ClassifySlot(many.1[0]) == ListHead
      && NoDuplicates(many.1)
      && var r := PopSlot(st.(heap := many.0), slots[lg := many.1[0]], lg, fclos);
      && Owned(r.st, r.slots, lists')
      && !OnSomeList(lists', many.1[0])
  {
    var F := |st.heap.heads|;
    var extra := SlotHeads(slots);
    assert extra[lg] == NULL;
    var lists1 := MallocManyKeepsPool(st.heap, extra, lists, lg, lg, src);
    var many := MallocMany(st.heap, lg, src);
    lists' := lists1;
    if many.1 != [] {
      var b0 := many.1[0];
      var heads1 := many.0.heads + extra[lg := BatchHead(many.1)];
      assert Linked(many.0.mem, heads1[F + lg], lists1[F + lg]);
      LinkedHasNoDuplicates(many.0.mem, heads1[F + lg], many.1);
      assert SlotHeads(slots[lg := b0]) == extra[lg := b0];
      var refilled := st.(heap := many.0);
      assert Owned(refilled, slots[lg := b0], lists1);
      lists' := OwnedPop(refilled, slots[lg := b0], lg, fclos, lists1);
    }
  }

  /** Popping a slot's list keeps the pool and puts the object on no list. */
  lemma OwnedPop(st: State, slots: seq<Word>, lg: nat, fclos: Word, lists: seq<seq<Word>>)
    returns (lists': seq<seq<Word>>)
    requires lg < |slots| && ClassifySlot(slots[lg]) == ListHead
    requires Owned(st, slots, lists)
    ensures slots[lg] in st.heap.mem
    ensures var r := PopSlot(st, slots, lg, fclos);
      && Owned(r.st, r.slots, lists')
      && !OnSomeList(lists', slots[lg])
      && (r.slots[lg] == NULL || IsObject(r.slots[lg]))
  {
    var F := |st.heap.heads|;
    var heads := st.heap.heads + SlotHeads(slots);
    var op := slots[lg];
    assert heads[F + lg] == op;
    PoolHeadReadable(st.heap.mem, heads, lists, F + lg);
    PoolPop(st.heap.mem, heads, lists, F + lg, NULL);
    lists' := lists[F + lg := lists[F + lg][1..]];
    var mem1 := st.heap.mem[op := NULL];
    SlotUpdateHeads(st.heap.heads, slots, lg, st.heap.mem[op]);
    var next := st.heap.mem[op];
    assert Pool(mem1, heads[F + lg := next], lists');
    // a link is NULL or a real object, never a count
    PoolHeadReadable(mem1, heads[F + lg := next], lists', F + lg);
    assert heads[F + lg := next] == st.heap.heads + SlotHeads(slots[lg := next]);
    PoolFrame(mem1, heads[F + lg := next], lists', op, Tag(fclos));
    assert mem1[op := Tag(fclos)] == st.heap.mem[op := Tag(fclos)];
  }

  /** An object GC_finalized_malloc hands out is later disclaimed by one
      call of its closure's procedure, on exactly the pointer the client
      received. */
  lemma TLAllocatedObjectIsFinalizedOnce(st: State, slots: seq<Word>, col: Collector, lb: Word, lg: nat, fclos: Word,
                                         refill: seq<Word>, generic: Reply, src: BatchSource, oom: nat -> Word,
                                         closures: Closures)
    requires ValidState(st) && st.doneInit
    requires ValidCollector(col)
    requires FreshBatch(refill) && ValidReply(generic, lb)
    requires |slots| == TINY_FREELISTS && SlotsReadable(st.heap.mem, slots)
    requires ValidSource(src)
    requires Aligned(fclos) && fclos in closures
    requires var r := MallocRequest(st, slots, col, lb, lg, fclos, refill, generic, src, oom);
      r.returned.Client? && r.returned.reply.Object?
    ensures var r := MallocRequest(st, slots, col, lb, lg, fclos, refill, generic, src, oom);
      && Disclaimable(r.st.heap.mem, closures, r.returned.reply.base)
      && FinalizedDisclaim(r.st.heap.mem, closures, r.returned.reply.base)
         == Outcome(0, [Call(closures[fclos].proc, ReturnedPointer(r.returned), closures[fclos].cd)])
  {
    var r := MallocRequest(st, slots, col, lb, lg, fclos, refill, generic, src, oom);
    TaggedIsFinalizedOnce(r.st.heap.mem, closures, r.returned.reply.base, fclos);
  }
}
